=== FILE: README.md ===
# Faculty rank-evaluation portal: scoring, document checks and submission rules

This Dafny project models the logic at the centre of a faculty-evaluation portal. Instructors upload evidence for four Key Result Areas (KRAs): Instruction, Research, Extension and Professional Development. An evaluator's raw KRA totals become one final weighted score, and that score maps to the highest attainable faculty rank. The modelled parts are:

- **Scoring (`AHP`)**:
  - the per-KRA caps (40, 100, 100, 100);
  - the weight table for each rank category;
  - the final score: raw totals, with null taken as 0, capped, then weighted and summed;
  - the rank-threshold table, walked from "Professor V" (595) down to "Instructor I" (66), with the below-threshold sentinel.
- **Document checks (`DocumentAI`)**: the pure part of the document-AI service.
  - Extracted entities are taken as input.
  - Name normalisation: lower-case, then drop everything except `a`–`z` and whitespace.
  - Word splitting with `explode`/`array_filter`.
  - Word-overlap similarity with its 0.7 threshold.
  - The research-document verdict: required fields, author list, whether the uploader is an author.
  - The certificate verdict: classifier type, required fields, name match.
  - Certificate autofill: the first non-empty mention of each field.
- **Submission (`Apply`)**:
  - the pre-check: rank set, then a submission under each KRA on the draft;
  - the submit action: rank gate, duplicate-pending gate, then the first draft becomes "pending evaluation".
- **Upload forms (`Forms`, `Research`, `Instruction`, `ProfessionalDevelopment`)**:
  - the dropdown options and dependency maps;
  - the validation rules of each criterion, including the conditional `required` rules and the type-dependent choices.
  - A rule set is modelled as the list of fields it rejects.
- **Shared helpers**:
  - `Text` holds PHP's `trim`, `explode`/`implode` and the empty-piece filter;
  - `Areas` holds the KRA enumeration and its order;
  - `Wrappers` holds the option type used for PHP's `null`.

Scores are exact `real`s. The PHP code uses doubles, but the weights are decimal fractions and every comparison in the source is against one fixed constant (a threshold, or 0.7 for similarity), so exact arithmetic states the intended behaviour.

Four observations about the code as written are proved rather than claimed:

- **Only two rank outcomes are reachable.** With the configured caps and weights, the highest possible final score is 52, 64, 76 or 82, depending on the category (`AHP.CeilingValues`). The lowest rank threshold is 66. So `getRankFromScore` applied to a final score only ever returns "Instructor I" or the sentinel, and for the Instructor and Assistant Professor categories only the sentinel (`AHP.ReachableRanks`). The thresholds look like they are meant for a different scale than the final score. The intended scale is not evident from the code, so this is recorded here and not as a finding.
- **An unknown rank category scores 0.0.** The code logs the problem and returns 0.0, and the model follows the code (`AHP.FinalScore`). This hides a configuration error: `AHP.UnknownCategoryLooksEmpty` proves that a caller cannot tell this 0.0 from the score of an application with no stored scores.
- **The "no authors extracted" branch of the research check is dead code.** The required-fields test already rejects a document without an `Author_List` entity (`DocumentAI.NoAuthorsUnreachable`).
- **A document-type rule is mis-spelled.** The instructional-material rule that makes `type` required spells the syllabus category differently from the option list. See Findings below.

## Model

| member | source | states |
|---|---|---|
| AHP.CategoryOf | app/Services/AHPService.php:126-130 | A category string resolves to a configured category exactly when it is that category's name; otherwise it resolves to nothing |
| AHP.CategoryRoundTrip | app/Services/AHPService.php:73-98 | Each of the four configured categories is found under its own name |
| AHP.WeightsAreConvex | app/Services/AHPService.php:73-98 | Every category's weights are non-negative and sum to exactly 1 over the four KRAs |
| AHP.Raw | app/Services/AHPService.php:110-115 | A null KRA score counts as 0; a stored score is used as is |
| AHP.Capped | app/Services/AHPService.php:118-123 | The capped score is at most the KRA cap and at most the raw score, and equals one of the two |
| AHP.FinalScore | app/Services/AHPService.php:126-129 | An unconfigured category gives 0.0, whatever the scores |
| AHP.Weighted | app/Services/AHPService.php:132-139 | The score accumulated KRA by KRA equals the fold, over the KRA list, of capped score times the category's weight |
| AHP.FinalScoreIsWeightedSum | app/Services/AHPService.php:132-139 | For a configured category, the final score is the sum over the four KRAs of capped score times weight |
| AHP.FinalScoreInRange | app/Services/AHPService.php:107-140 | With non-negative raw totals, the final score lies in [0, 100] |
| AHP.CategoryCeiling | app/Services/AHPService.php:118-139 | No final score exceeds the category's weighted sum of caps; all raw totals at or above their caps reach it exactly |
| AHP.CeilingValues | app/Services/AHPService.php:11-98 | The category ceilings are 52 (Instructor), 64 (Assistant), 76 (Associate) and 82 (Professor) |
| AHP.FinalScoreMonotone | app/Services/AHPService.php:118-139 | Raising one KRA's raw total never lowers the final score |
| AHP.FinalScoreSaturates | app/Services/AHPService.php:118-123 | Once a KRA's raw total reaches its cap, raising it further leaves the final score unchanged |
| AHP.CappingIdempotent | app/Services/AHPService.php:118-123 | Capping already-capped scores changes nothing |
| AHP.FinalScoreExamples | app/Services/AHPService.php:107-140 | Raw totals 50/20/10/5 give 22.25 for Professor and 34.75 for Instructor; "Lecturer" gives 0; all-null gives 0 |
| AHP.UnknownCategoryLooksEmpty | app/Services/AHPService.php:126-129 | The 0.0 of an unknown category equals the score of an empty application under any known category |
| AHP.TierIndex | app/Services/AHPService.php:150-154 | The resolved position is the first tier in table order whose threshold the score meets; every earlier tier's threshold exceeds the score |
| AHP.ResolveInIsTierIndex | app/Services/AHPService.php:148-157 | The table walk returns the title at that first-met position, or the sentinel when no tier is met |
| AHP.RankFromScore | app/Services/AHPService.php:148-157 | The rank of a score is the title of the first tier, richest first, whose threshold the score meets, or the sentinel when it meets none (see also `AHP.ResolvedTierIsGreatest` and `AHP.BelowLowestTierIff`) |
| AHP.RankTableWellFormed | app/Services/AHPService.php:53-71 | The threshold table is strictly descending, has 17 tiers ending with "Instructor I" at 66, and never contains the sentinel title |
| AHP.RankTitlesDistinct | app/Services/AHPService.php:53-71 | No rank title appears twice in the threshold table |
| AHP.ResolvedTierIsGreatest | app/Services/AHPService.php:150-154 | On a descending table, the resolved tier has the greatest threshold not above the score, so the highest attainable rank is returned |
| AHP.TierIndexMonotone | app/Services/AHPService.php:150-154 | A higher score never resolves to a lower tier |
| AHP.ThresholdIsInclusive | app/Services/AHPService.php:151 | A score exactly equal to a tier's threshold gets that tier |
| AHP.BelowLowestTierIff | app/Services/AHPService.php:150-156 | The sentinel "Below 'Instructor I' Threshold" is returned exactly for scores below 66 |
| AHP.RankExampleExact | app/Services/AHPService.php:58 | 463 resolves to "Professor I" |
| AHP.RankExampleJustBelow | app/Services/AHPService.php:58-59 | 462.9 resolves to "Associate Professor V" |
| AHP.RankBelowHundred | app/Services/AHPService.php:53-71 | Any score below 100 resolves to "Instructor I" or the sentinel |
| AHP.FinalScoreAtMost | app/Services/AHPService.php:107-140 | No final score exceeds 82, and the Instructor and Assistant Professor categories stay at or below 64 |
| AHP.ReachableRanks | app/Services/AHPService.php:107-156 | For any raw totals, negative ones included, the rank of a final score is "Instructor I" or the sentinel; for Instructor and Assistant Professor it is always the sentinel |
| Text.TrimStart | app/Http/Controllers/Instructor/ApplyController.php:21 | Leading trimming removes a prefix made only of trim characters and leaves a string that does not start with one |
| Text.TrimEnd | app/Http/Controllers/Instructor/ApplyController.php:21 | Trailing trimming removes a suffix made only of trim characters and leaves a string that does not end with one |
| Text.Trim | app/Http/Controllers/Instructor/ApplyController.php:21 | A trimmed string neither starts nor ends with space, tab, newline, carriage return, NUL or vertical tab |
| Text.TrimIsMiddle | app/Http/Controllers/Instructor/ApplyController.php:21 | What trimming keeps is a contiguous part of the input, and what it cut off on each side is made only of trim characters |
| Text.TrimEmptyIff | app/Http/Controllers/Instructor/ApplyController.php:21 | A string trims to empty exactly when all its characters are trim characters |
| Text.TrimKeepsCleanString | app/Http/Controllers/Instructor/ApplyController.php:21 | Trimming a string with no trim character at either end returns it unchanged |
| Text.Explode | app/Services/DocumentAIService.php:110 | Splitting gives at least one piece; no piece contains the separator; joining the pieces with the separator gives back the input |
| Text.ExplodeImplode | app/Services/DocumentAIService.php:110 | Splitting the join of separator-free pieces gives back exactly those pieces |
| Text.Implode | app/Services/DocumentAIService.php:110 | A join of n pieces is at least n - 1 characters long, one per separator; it is the inverse `Text.Explode` and `Text.ExplodeImplode` are stated against |
| Text.ImplodeConcat | app/Services/DocumentAIService.php:110 | Joining a concatenation of two non-empty lists is joining each, with one separator between |
| Text.ExplodeConcat | app/Services/DocumentAIService.php:110 | Splitting `x`, a separator, then `y` gives the pieces of `x` followed by the pieces of `y` |
| Text.NonEmpty | app/Services/DocumentAIService.php:110 | Filtering keeps every non-empty piece as often as it occurs and drops every empty one |
| Text.NonEmptyConcat | app/Services/DocumentAIService.php:110 | Filtering a concatenation filters each part and keeps their order, so the kept pieces stay in input order |
| Text.NonEmptyKeepsFullList | app/Services/DocumentAIService.php:110 | A list with no empty piece passes the filter unchanged |
| Areas.Ordinal | app/Http/Controllers/Instructor/ApplyController.php:36-41 | Each KRA sits at its ordinal position in the fixed KRA order I, II, III, IV |
| DocumentAI.LastMentions | app/Services/DocumentAIService.php:76-89 | The extracted-data map has a key exactly for each entity type that occurs, holding the mention of that type's last entity |
| DocumentAI.MissingKinds | app/Services/DocumentAIService.php:91-92 | A required field is reported missing exactly when no entity of its type was extracted |
| DocumentAI.MissingKindsOne | app/Services/DocumentAIService.php:91-92 | A single required field is reported exactly when it was not extracted |
| DocumentAI.MissingKindsConcat | app/Services/DocumentAIService.php:91-92 | The missing fields of two concatenated field lists are those of the first followed by those of the second, so the report keeps the required order and repeats nothing the list does not repeat |
| DocumentAI.MissingKindsOfNothing | app/Services/DocumentAIService.php:197-198 | With nothing extracted, the report is the whole required list in order |
| DocumentAI.LowerAscii | app/Services/DocumentAIService.php:107 | An upper-case ASCII letter becomes the letter 32 code points later, its lower-case form; every other character is unchanged |
| DocumentAI.Normalize | app/Services/DocumentAIService.php:107 | A normalised name contains only `a`–`z` and whitespace and is no longer than the input |
| DocumentAI.NormalizeChar | app/Services/DocumentAIService.php:107 | One character normalises to its lower-case form when that is a letter or whitespace, and to nothing otherwise |
| DocumentAI.NormalizeConcat | app/Services/DocumentAIService.php:107 | Normalising a concatenation normalises each part, so normalisation works character by character in order |
| DocumentAI.NormalizeFixesNameChars | app/Services/DocumentAIService.php:107 | A name already made only of `a`–`z` and whitespace is unchanged by normalisation |
| DocumentAI.NormalizeIdempotent | app/Services/DocumentAIService.php:107 | Normalising twice is normalising once |
| DocumentAI.NormalizeIgnoresCase | app/Services/DocumentAIService.php:107 | Names that differ only in ASCII letter case normalise to the same string |
| DocumentAI.NameWords | app/Services/DocumentAIService.php:110 | The words of a name are non-empty and contain no space |
| DocumentAI.NameWordsConcat | app/Services/DocumentAIService.php:110 | The words of two names joined by a space are the words of the first followed by those of the second |
| DocumentAI.NameWordsOfWord | app/Services/DocumentAIService.php:110 | A lower-case word is its own single word |
| DocumentAI.NameWordsOfWords | app/Services/DocumentAIService.php:110 | Joining non-empty lower-case words with spaces and splitting again gives back the same words in order |
| DocumentAI.MatchCount | app/Services/DocumentAIService.php:117 | The count of expected words found is at most the number expected, and equals it exactly when every expected word was found |
| DocumentAI.MatchCountSnoc | app/Services/DocumentAIService.php:117 | One more expected word adds one to the count exactly when it was extracted |
| DocumentAI.MatchCountIsFoundPositions | app/Services/DocumentAIService.php:117 | The count is the number of positions of the expected list whose word was extracted, repeats counted, as `array_intersect` keeps them |
| DocumentAI.Similarity | app/Services/DocumentAIService.php:117-118 | Similarity lies between 0 and 1 |
| DocumentAI.NameMatchesIff | app/Services/DocumentAIService.php:118-120 | A name matches exactly when ten times the match count reaches seven times the expected word count (at least 1) |
| DocumentAI.EmptyNameNeverMatches | app/Services/DocumentAIService.php:110-120 | An expected name with no words matches nothing |
| DocumentAI.NameMatchesItself | app/Services/DocumentAIService.php:110-120 | A name with at least one word matches itself |
| DocumentAI.ResearchData | app/Services/DocumentAIService.php:76-89 | The research data map holds every extracted type except `Author_List`, each with the mention of its last entity |
| DocumentAI.Authors | app/Services/DocumentAIService.php:80-82 | The author list is empty exactly when no `Author_List` entity was extracted; it holds the mention of every such entity and nothing else |
| DocumentAI.AuthorsOne | app/Services/DocumentAIService.php:80-82 | One entity contributes its mention exactly when it is an `Author_List` entity |
| DocumentAI.AuthorsConcat | app/Services/DocumentAIService.php:80-82 | The authors of a concatenation are the authors of each part in order, so the list keeps entity order and repeats |
| DocumentAI.FirstMatchingAuthor | app/Services/DocumentAIService.php:112-124 | The scan finds the first author whose name matches the uploader's, or reports that none matches |
| DocumentAI.ValidateResearch | app/Services/DocumentAIService.php:74-139 | Valid exactly when both required types occur and some author matches the uploader. A missing field gives the missing-fields reason; with both fields present and no matching author the reason names the uploader; success gives the research-validated reason. The data carries the author list only on success |
| DocumentAI.MissingResearchIff | app/Services/DocumentAIService.php:91-98 | Nothing is missing exactly when both an author list and a document title were extracted |
| DocumentAI.NoAuthorsUnreachable | app/Services/DocumentAIService.php:99-105 | The research check never answers "No authors extracted" |
| DocumentAI.ResearchRejectsWordlessUploader | app/Services/DocumentAIService.php:107-132 | An uploader name with no letters is never accepted as an author |
| DocumentAI.MessageStartsWithHead | app/Services/DocumentAIService.php:95-226 | Each reason's message starts with a character no other reason's message starts with |
| DocumentAI.MessageDeterminesReason | app/Services/DocumentAIService.php:95-226 | Equal messages come from the same kind of reason, and, except for a missing-fields list, from the same reason with the same interpolated name |
| DocumentAI.JoinComma | app/Services/DocumentAIService.php:95 | Joining a non-empty list starts with its first piece, gives a single piece back as is, and adds two characters per extra piece |
| DocumentAI.JoinCommaConcat | app/Services/DocumentAIService.php:95 | Joining a concatenation of two non-empty lists joins each, with ", " between |
| DocumentAI.JoinCommaPair | app/Services/DocumentAIService.php:201 | Two pieces are joined as first, ", ", second |
| DocumentAI.MissingFieldsMessage | app/Services/DocumentAIService.php:91-95 | With neither research field extracted, the message is "Missing required fields: Author_List, Document_Title" |
| DocumentAI.MissingCertificateMessage | app/Services/DocumentAIService.php:197-201 | With nothing extracted, the certificate message is "Missing required fields: User_Full_Name, Issuing_Organization, Date_Completed" |
| DocumentAI.ClassifiedType | app/Services/DocumentAIService.php:162-168 | The document type is the first CERTIFICATE or DIPLOMA entity, or none when there is no such entity |
| DocumentAI.CertificateData | app/Services/DocumentAIService.php:187-195 | The certificate data map holds exactly the extracted required types, each with the mention of its last entity |
| DocumentAI.MissingCertificateIff | app/Services/DocumentAIService.php:197-204 | Nothing is missing exactly when full name, issuing organisation and completion date were all extracted |
| DocumentAI.ValidateCertificate | app/Services/DocumentAIService.php:162-228 | Valid exactly when the document is classified, all three fields occur and the last full-name mention matches the uploader. An unclassified document is rejected with no data; missing fields give that reason; a name mismatch names the last full-name mention; success gives the certificate-validated reason |
| DocumentAI.FirstMention | app/Services/DocumentAIService.php:260-269 | The autofill value of a field is its first mention that is neither empty nor "0", or none when there is no such mention |
| DocumentAI.ExtractCertificateData | app/Services/DocumentAIService.php:255-290 | Nothing is extracted exactly when every mention of the four listed fields is empty; otherwise each field holds its first usable mention |
| Apply.RankMissingIff | app/Http/Controllers/Instructor/ApplyController.php:21 | The rank is missing exactly when it is null, or trims to the empty string or to "Unset" |
| Apply.CleanRankPresent | app/Http/Controllers/Instructor/ApplyController.php:75 | A rank with no surrounding whitespace other than "Unset" passes the rank gate |
| Apply.StatusOf | app/Http/Controllers/Instructor/ApplyController.php:80-92 | The column values "draft" and "pending evaluation" are exactly the two named statuses; any other value is kept as its own status |
| Apply.StatusRoundTrip | app/Http/Controllers/Instructor/ApplyController.php:80-92 | Writing back a read status gives the same column value, so each column value has one encoding |
| Apply.FirstWithStatus | app/Http/Controllers/Instructor/ApplyController.php:32 | The draft lookup returns the first application with the status, or none when no application has it |
| Apply.DraftOf | app/Http/Controllers/Instructor/ApplyController.php:32 | No draft is found exactly when no application is a draft; a found one is a draft with no draft before it |
| Apply.MissingKras | app/Http/Controllers/Instructor/ApplyController.php:29-57 | Without a draft all four KRAs are missing. With a draft, a KRA is missing exactly when it has no submission. The list keeps KRA order |
| Apply.CheckSubmissions | app/Http/Controllers/Instructor/ApplyController.php:16-64 | The missing-rank answer comes exactly when the rank is missing. An incomplete answer lists the non-empty missing KRAs. Success comes exactly when there is a rank and a draft with a submission under every KRA |
| Apply.SubmitEvaluation | app/Http/Controllers/Instructor/ApplyController.php:69-96 | Denied exactly when the rank is missing; refused exactly when an application is already pending; otherwise the first draft becomes pending and nothing else changes. A refusal changes nothing |
| Apply.SubmitIsOnce | app/Http/Controllers/Instructor/ApplyController.php:79-82 | A second submit after a successful one is refused as already pending |
| Apply.SubmitKeepsSubmissions | app/Http/Controllers/Instructor/ApplyController.php:91-93 | A successful submit keeps every application and submission count and turns exactly one draft into pending evaluation |
| Forms.FilledIff | app/Http/Controllers/Instructor/ResearchController.php:220-222 | An input passes `required` exactly when it is present and trimming leaves something |
| Forms.FilledByFirst | app/Http/Controllers/Instructor/ResearchController.php:221-222 | An input starting with a character trim keeps passes `required` |
| Forms.ChosenIsFilled | app/Http/Controllers/Instructor/ResearchController.php:221-222 | A value taken from an option list whose entries all start with a kept character passes `required` |
| Forms.BlankInput | app/Http/Controllers/Instructor/ResearchController.php:220-236 | A blank input fails `required` text and choice rules, passes a conditional rule exactly when it is not required, and passes an optional checkbox |
| Forms.FilledInput | app/Http/Controllers/Instructor/ResearchController.php:220-236 | A filled input passes each rule exactly when its value does: length, list membership, the custom check, or "0"/"1" for a checkbox |
| Forms.ParsedRules | app/Http/Controllers/Instructor/ProfessionalDevelopmentController.php:209-226 | A blank or unparsable date fails; an end date passes against a start that is not a date; a blank count passes exactly when not required; a given count passes exactly when at least the minimum |
| Forms.Failing | app/Http/Controllers/Instructor/ResearchController.php:271 | A field is rejected exactly when one of its rules fails |
| Forms.FailingField | app/Http/Controllers/Instructor/ResearchController.php:271 | When each field has one rule, a field is rejected exactly when its own rule fails |
| Research.TypesStartWithKeptChar | app/Http/Controllers/Instructor/ResearchController.php:63-67 | No listed creative-work type is blank |
| Research.DependencyMapsCoverTypes | app/Http/Controllers/Instructor/ResearchController.php:63-79 | The sub-type and status/level maps are keyed by exactly the three listed types |
| Research.Errors | app/Http/Controllers/Instructor/ResearchController.php:218-268 | An unknown criterion rejects nothing; each criterion rejects only its own fields |
| Research.IndexingRule | app/Http/Controllers/Instructor/ResearchController.php:224-229 | Blank indexing is rejected exactly for journal articles and conference papers; filled indexing must come from the indexing list |
| Research.DoiRule | app/Http/Controllers/Instructor/ResearchController.php:231-236 | A blank DOI is rejected exactly for journal articles |
| Research.OutputChoices | app/Http/Controllers/Instructor/ResearchController.php:221-222 | A research output's role and category are accepted exactly when filled with a listed option |
| Research.CreativeWorkChoices | app/Http/Controllers/Instructor/ResearchController.php:242-243 | A creative work's type and role are accepted exactly when filled with a listed option |
| Research.DependentChoices | app/Http/Controllers/Instructor/ResearchController.php:244-265 | A sub-type or status/level is accepted exactly when filled and listed for the chosen type |
| Research.DependentChoiceNeedsType | app/Http/Controllers/Instructor/ResearchController.php:248-262 | An accepted sub-type or status/level implies an accepted type |
| Research.SubTypeTiedToType | app/Http/Controllers/Instructor/ResearchController.php:69-72 | "Patent" is rejected as the sub-type of a creative work |
| Instruction.ErrorsAsWritten | app/Http/Controllers/Instructor/InstructionController.php:182-227 | The rule set as the code runs it, with the type rule spelled as in the code: an unknown criterion rejects nothing, and each criterion rejects only its own fields |
| Instruction.TypeRuleAsWritten | app/Http/Controllers/Instructor/InstructionController.php:186-196 | As written, a blank type is rejected exactly for "Instructional Material" and the unlisted spelling "Syllabus Development/Enhancement" |
| Instruction.SyllabusTypeSlipsThrough | app/Http/Controllers/Instructor/InstructionController.php:190-195 | A syllabus entry with a blank type passes the rules as written but is rejected on its type by the intended rules |
| Instruction.Errors | app/Http/Controllers/Instructor/InstructionController.php:182-227 | The corrected rule set, with the type rule as intended (see Findings): an unknown criterion rejects nothing; each criterion rejects only its own fields |
| Instruction.AgreeOffKind | app/Http/Controllers/Instructor/InstructionController.php:182-227 | The rule sets as written and as corrected reject exactly the same fields apart from the type, for every criterion, so the category, role and mentorship properties hold for the code as written |
| Instruction.TypeRule | app/Http/Controllers/Instructor/InstructionController.php:51-54 | A blank type is rejected exactly for the two categories that have types; a filled type is always accepted |
| Instruction.MaterialChoices | app/Http/Controllers/Instructor/InstructionController.php:185-197 | A material's category and role are accepted exactly when filled with a listed option, under the rules as written and as corrected |
| Instruction.MentorshipRoleRule | app/Http/Controllers/Instructor/InstructionController.php:210-221 | A mentorship role is rejected exactly when blank, or when the service type has a role list that does not contain it |
| Instruction.UnknownServiceTypeAcceptsAnyRole | app/Http/Controllers/Instructor/InstructionController.php:213-219 | Any filled role passes the role rule when the service type is not one of the listed service types, since the role map has no entry for it |
| Instruction.MentorshipChoices | app/Http/Controllers/Instructor/InstructionController.php:209-224 | The service type and level are accepted exactly when filled with a listed option |
| ProfessionalDevelopment.Errors | app/Http/Controllers/Instructor/ProfessionalDevelopmentController.php:199-245 | An unknown criterion rejects nothing; an award rejects only its own four fields |
| ProfessionalDevelopment.TrainingHoursAndLevel | app/Http/Controllers/Instructor/ProfessionalDevelopmentController.php:215-232 | With both blank, hours are rejected exactly for the two non-degree types and level exactly for every other type, so exactly one of the two is required |
| ProfessionalDevelopment.TrainingHoursValue | app/Http/Controllers/Instructor/ProfessionalDevelopmentController.php:221-226 | Given hours are accepted exactly when they are an integer of at least 1 |
| ProfessionalDevelopment.OfficerRole | app/Http/Controllers/Instructor/ProfessionalDevelopmentController.php:203-208 | A blank role is rejected exactly when the officer checkbox was sent |
| ProfessionalDevelopment.MembershipChoice | app/Http/Controllers/Instructor/ProfessionalDevelopmentController.php:48 | The membership type is accepted exactly when it is Member, Life Member or Fellow |
| ProfessionalDevelopment.DateOrder | app/Http/Controllers/Instructor/ProfessionalDevelopmentController.php:209-220 | The start date is accepted exactly when it is a date not after today. The end date is accepted exactly when it is a date and, if the start is a date, not before it |
| ProfessionalDevelopment.TypeAndLevelChoices | app/Http/Controllers/Instructor/ProfessionalDevelopmentController.php:51-60 | The training type comes from the training list and the award level from the award list |

## Left out

- Google Drive storage, the Document AI client calls and their exception paths (the "API error" verdicts) are external I/O. The model takes the extracted entities as input.
- Database queries are replaced by plain values: the user, the applications, the submission counts and `first()`. The `unique` validation rules need the stored records and are left out. Pagination and search are left out.
- The `proof_file` rule (mime types, 10 MB size) is left out, because the model has no file content.
- Laravel's `TrimStrings` middleware is not modelled: values are compared with option lists untrimmed. The `required` rule's own trim is modelled, so a whitespace-only input counts as blank and skips the field's other rules. `before_or_equal:today` compares whole days. `ConvertEmptyStringsToNull` is modelled: an empty text input is the same as an absent one.
- The `sub_caps`, `bonus` and `new_hire_bonus` entries of the cap table are not modelled, because the scoring code never reads them.
- AHP.FinalScore: uses exact reals rather than PHP doubles. The log line written for an unknown category is I/O and is left out.
- DocumentAI.Normalize: treats only ASCII letters as letters, as `strtolower` does in PHP 8.2 and later. Whitespace is the PCRE `\s` set without Unicode mode.
- DocumentAI.ValidateCertificate, DocumentAI.ValidateResearch: return the verdict's reason as a datatype rather than a string. `DocumentAI.Message` renders it as the source's text, with the name interpolated; the API-error reasons belong to the left-out exception paths.
- The create, update, delete, file-view and record-formatting actions of the three upload controllers, and their JSON responses, are left out. They are CRUD and storage glue around the validation modelled here.
- The evaluator controller, the views, the front-end scripts and the migrations are not part of this model.
- Apply.CheckSubmissions: returns KRAs rather than the page routes the JSON response links to.

## Findings

| source | as written | input that shows it | evidently intended | confidence | as-written member | corrected member |
|---|---|---|---|---|---|---|
| app/Http/Controllers/Instructor/InstructionController.php:190-195 | `type` is required when the category is "Instructional Material" or "Syllabus Development/Enhancement" (no spaces around the slash). The option list (line 49) and the type map (line 53) spell the category "Syllabus Development / Enhancement" | criterion "instructional-materials", category "Syllabus Development / Enhancement", type left blank: no error on `type` | `type` required for both categories that have a type list, so a syllabus entry must give its type ("Syllabus") | high; not executed | Instruction.SyllabusTypeSlipsThrough | Instruction.TypeRule |

=== FILE: ahp.dfy ===
/** The scoring and ranking engine: raw KRA totals are capped, weighted by the
    applicant's rank category and summed into a final score, and a final score
    is resolved to the highest rank title whose threshold it meets. */
module AHP {
  import opened Wrappers
  import opened Areas

  /* ---------------------------------------------------------------- caps */

  /** The total cap of each KRA: 40 points for Instruction, 100 for the others. */
  function Cap(k: Kra): real {
    match k
    case Instruction => 40.0
    case Research => 100.0
    case Extension => 100.0
    case ProfessionalDevelopment => 100.0
  }

  /* ---------------------------------------------------- rank categories */

  /** The four coarse faculty bands that select a weight vector. */
  datatype Category = Instructor | AssistantProfessor | AssociateProfessor | Professor

  /** The key under which a category's weights are stored. */
  function CategoryName(c: Category): string {
    match c
    case Instructor => "Instructor"
    case AssistantProfessor => "Assistant Professor"
    case AssociateProfessor => "Associate Professor"
    case Professor => "Professor"
  }

  /** Looks a rank-category string up in the weight table; `None` when the
      table has no row for it. */
  function CategoryOf(name: string): (r: Option<Category>)
    ensures r.Some? ==> CategoryName(r.value) == name
    ensures r.None? ==> forall c :: CategoryName(c) != name
  {
    if name == "Instructor" then Some(Instructor)
    else if name == "Assistant Professor" then Some(AssistantProfessor)
    else if name == "Associate Professor" then Some(AssociateProfessor)
    else if name == "Professor" then Some(Professor)
    else None
  }

  /** Every category is found under its own name. */
  lemma CategoryRoundTrip(c: Category)
    ensures CategoryOf(CategoryName(c)) == Some(c)
  {
  }

  /** The weight of KRA `k` for category `c`. */
  function Weight(c: Category, k: Kra): real {
    match c
    case Instructor =>
      (match k
       case Instruction => 0.80
       case Research => 0.10
       case Extension => 0.05
       case ProfessionalDevelopment => 0.05)
    case AssistantProfessor =>
      (match k
       case Instruction => 0.60
       case Research => 0.20
       case Extension => 0.10
       case ProfessionalDevelopment => 0.10)
    case AssociateProfessor =>
      (match k
       case Instruction => 0.40
       case Research => 0.30
       case Extension => 0.15
       case ProfessionalDevelopment => 0.15)
    case Professor =>
      (match k
       case Instruction => 0.30
       case Research => 0.40
       case Extension => 0.15
       case ProfessionalDevelopment => 0.15)
  }

  /** Sum of the category's weights over a list of KRAs. */
  function WeightSum(c: Category, ks: seq<Kra>): real {
    if ks == [] then 0.0 else Weight(c, ks[0]) + WeightSum(c, ks[1..])
  }

  /** Every weight row is a convex combination: non-negative weights summing to 1. */
  lemma WeightsAreConvex(c: Category)
    ensures forall k :: Weight(c, k) >= 0.0
    ensures WeightSum(c, AllKras) == 1.0
  {
    assert AllKras[1..] == [Research, Extension, ProfessionalDevelopment];
    assert AllKras[1..][1..] == [Extension, ProfessionalDevelopment];
    assert AllKras[1..][1..][1..] == [ProfessionalDevelopment];
  }

  /** Scaling by a non-negative weight preserves order. */
  lemma ScaleMonotone(a: real, b: real, w: real)
    requires a <= b && w >= 0.0
    ensures a * w <= b * w
  {
  }

  /* ------------------------------------------------------- final score */

  /** The four raw KRA totals stored on an application; `None` is a null column. */
  datatype KraScores = KraScores(
    instruction: Option<real>,
    research: Option<real>,
    extension: Option<real>,
    professionalDevelopment: Option<real>)

  function Stored(s: KraScores, k: Kra): Option<real> {
    match k
    case Instruction => s.instruction
    case Research => s.research
    case Extension => s.extension
    case ProfessionalDevelopment => s.professionalDevelopment
  }

  /** The raw total of a KRA, a null total counting as 0. */
  function Raw(s: KraScores, k: Kra): (r: real)
    ensures Stored(s, k).None? ==> r == 0.0
    ensures Stored(s, k).Some? ==> r == Stored(s, k).value
  {
    Stored(s, k).GetOr(0.0)
  }

  /** The raw total clipped to the KRA's cap: `min(raw, cap)`. */
  function Capped(s: KraScores, k: Kra): (r: real)
    ensures r <= Cap(k) && r <= Raw(s, k)
    ensures r == Raw(s, k) || r == Cap(k)
  {
    if Raw(s, k) <= Cap(k) then Raw(s, k) else Cap(k)
  }

  /** The scores with the raw total of KRA `k` set to `v`. */
  function WithRaw(s: KraScores, k: Kra, v: real): (t: KraScores)
    ensures Raw(t, k) == v
    ensures forall j :: j != k ==> Stored(t, j) == Stored(s, j)
  {
    match k
    case Instruction => s.(instruction := Some(v))
    case Research => s.(research := Some(v))
    case Extension => s.(extension := Some(v))
    case ProfessionalDevelopment => s.(professionalDevelopment := Some(v))
  }

  /** One KRA's contribution: its capped total times the category's weight. */
  function Term(s: KraScores, c: Category, k: Kra): real {
    Capped(s, k) * Weight(c, k)
  }

  /** A contribution grows with the capped total, since weights are non-negative. */
  lemma TermMonotone(s: KraScores, t: KraScores, c: Category, k: Kra)
    requires Capped(s, k) <= Capped(t, k)
    ensures Term(s, c, k) <= Term(t, c, k)
  {
    WeightsAreConvex(c);
    ScaleMonotone(Capped(s, k), Capped(t, k), Weight(c, k));
  }

  /** The weighted sum of the capped totals for a known category, accumulated
      KRA by KRA as the engine does it. */
  function Weighted(s: KraScores, c: Category): (r: real)
    ensures r == TermSum(s, c, AllKras)
  {
    var ks := AllKras;
    assert TermSum(s, c, ks[3..]) == Term(s, c, ProfessionalDevelopment) + TermSum(s, c, []);
    assert TermSum(s, c, ks[2..]) == Term(s, c, Extension) + TermSum(s, c, ks[3..]);
    assert TermSum(s, c, ks[1..]) == Term(s, c, Research) + TermSum(s, c, ks[2..]);
    assert TermSum(s, c, ks) == Term(s, c, Instruction) + TermSum(s, c, ks[1..]);
    0.0 + Term(s, c, Instruction) + Term(s, c, Research)
      + Term(s, c, Extension) + Term(s, c, ProfessionalDevelopment)
  }

  /** The same sum as a fold over a list of KRAs. */
  function TermSum(s: KraScores, c: Category, ks: seq<Kra>): real {
    if ks == [] then 0.0 else Term(s, c, ks[0]) + TermSum(s, c, ks[1..])
  }

  /** The final score of an application for the given rank-category string.
      An unknown category yields 0.0 without looking at any weight. */
  function FinalScore(s: KraScores, category: string): (r: real)
    ensures CategoryOf(category).None? ==> r == 0.0
  {
    match CategoryOf(category)
    case None => 0.0
    case Some(c) => Weighted(s, c)
  }

  /** For a known category the final score is the sum, over the four KRAs,
      of the capped total times the category's weight. */
  lemma FinalScoreIsWeightedSum(s: KraScores, c: Category)
    ensures FinalScore(s, CategoryName(c)) == TermSum(s, c, AllKras)
  {
    CategoryRoundTrip(c);
  }

  /** With non-negative raw totals the final score lies in [0, 100]: the
      weights are convex and no cap exceeds 100. */
  lemma FinalScoreInRange(s: KraScores, category: string)
    requires forall k :: Raw(s, k) >= 0.0
    ensures 0.0 <= FinalScore(s, category) <= 100.0
  {
    if c :| CategoryOf(category) == Some(c) {
      CategoryRoundTrip(c);
      CategoryCeiling(s, c);
      CeilingValues();
      var zero := KraScores(None, None, None, None);
      forall k ensures Term(zero, c, k) <= Term(s, c, k) {
        TermMonotone(zero, s, c, k);
      }
    }
  }

  /** The largest final score a category can reach: each capped total at its cap. */
  function Ceiling(c: Category): real {
    40.0 * Weight(c, Instruction) + 100.0 * Weight(c, Research)
      + 100.0 * Weight(c, Extension) + 100.0 * Weight(c, ProfessionalDevelopment)
  }

  /** The final score never exceeds the category's ceiling, and reaches it
      exactly when every raw total is at or above its cap. */
  lemma CategoryCeiling(s: KraScores, c: Category)
    ensures FinalScore(s, CategoryName(c)) <= Ceiling(c)
    ensures (forall k :: Raw(s, k) >= Cap(k)) ==> FinalScore(s, CategoryName(c)) == Ceiling(c)
  {
    CategoryRoundTrip(c);
    var full := KraScores(Some(40.0), Some(100.0), Some(100.0), Some(100.0));
    forall k ensures Term(s, c, k) <= Term(full, c, k) {
      TermMonotone(s, full, c, k);
    }
    if forall k :: Raw(s, k) >= Cap(k) {
      forall k ensures Term(s, c, k) == Term(full, c, k) {
      }
    }
  }

  /** The ceilings of the reference configuration: 52, 64, 76 and 82 points. */
  lemma CeilingValues()
    ensures Ceiling(Instructor) == 52.0
    ensures Ceiling(AssistantProfessor) == 64.0
    ensures Ceiling(AssociateProfessor) == 76.0
    ensures Ceiling(Professor) == 82.0
  {
  }

  /** Raising one raw total never lowers the final score. */
  lemma FinalScoreMonotone(s: KraScores, k: Kra, v: real, category: string)
    requires v >= Raw(s, k)
    ensures FinalScore(WithRaw(s, k, v), category) >= FinalScore(s, category)
  {
    var t := WithRaw(s, k, v);
    if c :| CategoryOf(category) == Some(c) {
      CategoryRoundTrip(c);
      forall j ensures Term(s, c, j) <= Term(t, c, j) {
        TermMonotone(s, t, c, j);
      }
    }
  }

  /** Once a KRA's raw total is at its cap, raising it further leaves the
      final score unchanged. */
  lemma FinalScoreSaturates(s: KraScores, k: Kra, v: real, category: string)
    requires Raw(s, k) >= Cap(k) && v >= Raw(s, k)
    ensures FinalScore(WithRaw(s, k, v), category) == FinalScore(s, category)
  {
    var t := WithRaw(s, k, v);
    if c :| CategoryOf(category) == Some(c) {
      forall j ensures Term(t, c, j) == Term(s, c, j) {
      }
    }
  }

  /** Capping already-capped totals changes nothing. */
  lemma CappingIdempotent(s: KraScores)
    ensures forall k :: Capped(CappedScores(s), k) == Capped(s, k)
  {
  }

  /** The totals after capping, stored back as an application's scores. */
  function CappedScores(s: KraScores): (t: KraScores)
    ensures forall k :: Raw(t, k) == Capped(s, k)
  {
    KraScores(
      Some(Capped(s, Instruction)), Some(Capped(s, Research)),
      Some(Capped(s, Extension)), Some(Capped(s, ProfessionalDevelopment)))
  }

  /** Worked examples: raw totals 50, 20, 10, 5 give 22.25 for a Professor and
      34.75 for an Instructor; an unconfigured category gives 0. */
  lemma FinalScoreExamples()
    ensures FinalScore(KraScores(Some(50.0), Some(20.0), Some(10.0), Some(5.0)), "Professor") == 22.25
    ensures FinalScore(KraScores(Some(50.0), Some(20.0), Some(10.0), Some(5.0)), "Instructor") == 34.75
    ensures FinalScore(KraScores(Some(50.0), Some(20.0), Some(10.0), Some(5.0)), "Lecturer") == 0.0
    ensures FinalScore(KraScores(None, None, None, None), "Professor") == 0.0
  {
  }

  /** The 0.0 an unknown category yields is also the score of an application
      with nothing stored under any known category: a caller cannot tell the
      two apart. */
  lemma UnknownCategoryLooksEmpty(category: string, c: Category)
    requires CategoryOf(category).None?
    ensures FinalScore(KraScores(None, None, None, None), category)
         == FinalScore(KraScores(None, None, None, None), CategoryName(c))
  {
    CategoryRoundTrip(c);
  }

  /* --------------------------------------------------- rank resolution */

  /** A rank title and the minimum final score that attains it. */
  datatype Tier = Tier(title: string, threshold: real)

  /** The rank threshold table, richest title first. */
  const RankThresholds: seq<Tier> := [
    Tier("Professor V", 595.0),
    Tier("Professor IV", 562.0),
    Tier("Professor III", 529.0),
    Tier("Professor II", 496.0),
    Tier("Professor I", 463.0),
    Tier("Associate Professor V", 430.0),
    Tier("Associate Professor IV", 397.0),
    Tier("Associate Professor III", 364.0),
    Tier("Associate Professor II", 331.0),
    Tier("Associate Professor I", 298.0),
    Tier("Assistant Professor IV", 265.0),
    Tier("Assistant Professor III", 232.0),
    Tier("Assistant Professor II", 199.0),
    Tier("Assistant Professor I", 166.0),
    Tier("Instructor III", 133.0),
    Tier("Instructor II", 100.0),
    Tier("Instructor I", 66.0)
  ]

  /** What a score below every threshold resolves to. */
  const BelowLowestTier: string := "Below 'Instructor I' Threshold"

  ghost predicate StrictlyDescending(table: seq<Tier>) {
    forall i, j :: 0 <= i < j < |table| ==> table[i].threshold > table[j].threshold
  }

  /** The position of the first tier, in table order, whose threshold the
      score meets; `|table|` when it meets none. */
  function TierIndex(table: seq<Tier>, score: real): (n: nat)
    ensures n <= |table|
    ensures n < |table| ==> table[n].threshold <= score
    ensures forall j :: 0 <= j < n ==> table[j].threshold > score
  {
    if table == [] then 0
    else if score >= table[0].threshold then 0
    else 1 + TierIndex(table[1..], score)
  }

  /** The walk over a threshold table: the first title whose threshold is at
      most the score, or the below-lowest-tier sentinel. */
  function ResolveIn(table: seq<Tier>, score: real): string {
    if table == [] then BelowLowestTier
    else if score >= table[0].threshold then table[0].title
    else ResolveIn(table[1..], score)
  }

  /** The walk returns the title at `TierIndex`, or the sentinel past the end. */
  lemma {:induction false} ResolveInIsTierIndex(table: seq<Tier>, score: real)
    ensures var n := TierIndex(table, score);
      ResolveIn(table, score) == if n < |table| then table[n].title else BelowLowestTier
  {
    if table != [] && score < table[0].threshold {
      ResolveInIsTierIndex(table[1..], score);
    }
  }

  /** The highest attainable rank for a final score. */
  function RankFromScore(score: real): (r: string)
    ensures var n := TierIndex(RankThresholds, score);
      r == if n < |RankThresholds| then RankThresholds[n].title else BelowLowestTier
  {
    ResolveInIsTierIndex(RankThresholds, score);
    ResolveIn(RankThresholds, score)
  }

  /** A table whose neighbouring thresholds fall is strictly descending. */
  lemma {:induction false} AdjacentDescending(table: seq<Tier>)
    requires forall i :: 0 <= i < |table| - 1 ==> table[i].threshold > table[i + 1].threshold
    ensures StrictlyDescending(table)
  {
    if |table| > 1 {
      var rest := table[1..];
      AdjacentDescending(rest);
      forall i, j | 0 <= i < j < |table|
        ensures table[i].threshold > table[j].threshold
      {
        assert table[j] == rest[j - 1];
        if i > 0 {
          assert table[i] == rest[i - 1];
        } else if j > 1 {
          assert table[1] == rest[0];
        }
      }
    }
  }

  /** The reference table is strictly descending, ends with "Instructor I" at
      66, and no title in it is the sentinel. */
  lemma RankTableWellFormed()
    ensures StrictlyDescending(RankThresholds)
    ensures |RankThresholds| == 17 && RankThresholds[16] == Tier("Instructor I", 66.0)
    ensures forall i :: 0 <= i < |RankThresholds| ==> RankThresholds[i].threshold >= 66.0
    ensures forall i :: 0 <= i < |RankThresholds| ==> RankThresholds[i].title != BelowLowestTier
  {
    AdjacentDescending(RankThresholds);
  }

  /** No title appears twice in the reference table. */
  lemma RankTitlesDistinct()
    ensures forall i, j :: 0 <= i < j < |RankThresholds| ==> RankThresholds[i].title != RankThresholds[j].title
  {
  }

  /** On a strictly descending table, the resolved tier is the one with the
      greatest threshold not above the score. */
  lemma ResolvedTierIsGreatest(table: seq<Tier>, score: real)
    requires StrictlyDescending(table)
    ensures var n := TierIndex(table, score);
      forall j :: 0 <= j < |table| && table[j].threshold <= score ==>
        n < |table| && table[j].threshold <= table[n].threshold
  {
  }

  /** A higher score never resolves to a tier further down the table. */
  lemma TierIndexMonotone(table: seq<Tier>, s1: real, s2: real)
    requires s1 <= s2
    ensures TierIndex(table, s2) <= TierIndex(table, s1)
  {
  }

  /** A score exactly equal to a threshold gets that tier's title. */
  lemma ThresholdIsInclusive(i: nat)
    requires i < |RankThresholds|
    ensures RankFromScore(RankThresholds[i].threshold) == RankThresholds[i].title
  {
    RankTableWellFormed();
    var table := RankThresholds;
    var score := table[i].threshold;
    ResolveInIsTierIndex(table, score);
    var n := TierIndex(table, score);
    assert n <= i;
    assert n >= i by {
      assert forall j :: 0 <= j < i ==> table[j].threshold > score;
    }
  }

  /** The sentinel is returned exactly for scores below 66. */
  lemma BelowLowestTierIff(score: real)
    ensures RankFromScore(score) == BelowLowestTier <==> score < 66.0
  {
    RankTableWellFormed();
    ResolveInIsTierIndex(RankThresholds, score);
  }

  /** `TierIndex` is pinned down by its first-match property. */
  lemma TierIndexIs(table: seq<Tier>, score: real, n: nat)
    requires n < |table| && table[n].threshold <= score
    requires forall j :: 0 <= j < n ==> table[j].threshold > score
    ensures TierIndex(table, score) == n
  {
  }

  /** Worked example: 463 meets the "Professor I" threshold exactly. */
  lemma RankExampleExact()
    ensures RankFromScore(463.0) == "Professor I"
  {
    ThresholdIsInclusive(4);
  }

  /** Worked example: just below 463 falls to the next tier down. */
  lemma RankExampleJustBelow()
    ensures RankFromScore(462.9) == "Associate Professor V"
  {
    var table := RankThresholds;
    RankTableWellFormed();
    assert table[4].threshold == 463.0 && table[5] == Tier("Associate Professor V", 430.0);
    TierIndexIs(table, 462.9, 5);
    ResolveInIsTierIndex(table, 462.9);
  }

  /** A score below 100 resolves to "Instructor I" or the sentinel. */
  lemma RankBelowHundred(score: real)
    requires score < 100.0
    ensures RankFromScore(score) in {"Instructor I", BelowLowestTier}
  {
    RankTableWellFormed();
    var n := TierIndex(RankThresholds, score);
    assert n >= 16;
  }

  /** No final score exceeds 82, and the Instructor and Assistant Professor
      categories stay at or below 64. */
  lemma FinalScoreAtMost(s: KraScores, category: string)
    ensures FinalScore(s, category) <= 82.0
    ensures category in {"Instructor", "Assistant Professor"} ==> FinalScore(s, category) <= 64.0
  {
    CeilingValues();
    if c :| CategoryOf(category) == Some(c) {
      CategoryRoundTrip(c);
      CategoryCeiling(s, c);
    }
  }

  /** No final score reaches a rank above "Instructor I"; the Instructor and
      Assistant Professor categories never reach any tier at all. */
  lemma ReachableRanks(s: KraScores, category: string)
    ensures RankFromScore(FinalScore(s, category)) in {"Instructor I", BelowLowestTier}
    ensures category in {"Instructor", "Assistant Professor"} ==>
      RankFromScore(FinalScore(s, category)) == BelowLowestTier
  {
    var score := FinalScore(s, category);
    FinalScoreAtMost(s, category);
    RankBelowHundred(score);
    BelowLowestTierIff(score);
  }
}

=== FILE: apply.dfy ===
/** The instructor's application flow: the submission precheck, and the
    draft → pending-evaluation transition performed on submit. */
module Apply {
  import opened Wrappers
  import opened Text
  import opened Areas

  /** An application's status column: the two values the instructor flow
      reads and writes, `draft` and `pending evaluation`, and any other value
      the evaluator side may set. Those two strings are always `Draft` and
      `PendingEvaluation`, never `OtherStatus` (see `StatusOf`). */
  datatype Status = Draft | PendingEvaluation | OtherStatus(name: string)

  /** The status a stored column value denotes; the only encoding used. */
  function StatusOf(column: string): (st: Status)
    ensures st == Draft <==> column == "draft"
    ensures st == PendingEvaluation <==> column == "pending evaluation"
    ensures st.OtherStatus? ==> st.name == column
  {
    if column == "draft" then Draft
    else if column == "pending evaluation" then PendingEvaluation
    else OtherStatus(column)
  }

  /** The column value a status is stored as. */
  function ColumnOf(st: Status): string {
    match st
    case Draft => "draft"
    case PendingEvaluation => "pending evaluation"
    case OtherStatus(name) => name
  }

  /** Reading back a stored status gives the same status, for every status
      `StatusOf` can produce; so no second encoding of `draft` arises. */
  lemma StatusRoundTrip(column: string)
    ensures ColumnOf(StatusOf(column)) == column
    ensures StatusOf(ColumnOf(StatusOf(column))) == StatusOf(column)
  {
  }

  /** An application with the number of submissions linked to it per KRA. */
  datatype Application = Application(
    status: Status,
    instructions: nat,
    researches: nat,
    extensions: nat,
    professionalDevelopments: nat)

  function SubmissionCount(a: Application, k: Kra): nat {
    match k
    case Instruction => a.instructions
    case Research => a.researches
    case Extension => a.extensions
    case ProfessionalDevelopment => a.professionalDevelopments
  }

  /** The signed-in instructor: the stored faculty rank (nullable) and their
      applications in the order the database returns them. */
  datatype Instructor = Instructor(facultyRank: Option<string>, applications: seq<Application>)

  /** The rank counts as missing when it is null, blank after trimming, or "Unset". */
  predicate RankMissing(rank: Option<string>) {
    rank.None? || Trim(rank.value) == "" || Trim(rank.value) == "Unset"
  }

  /** A rank is missing exactly when it is null, only whitespace, or "Unset"
      with optional surrounding whitespace. */
  lemma RankMissingIff(rank: Option<string>)
    ensures RankMissing(rank) <==>
      rank.None? || AllTrimChars(rank.value) || Trim(rank.value) == "Unset"
  {
    if rank.Some? {
      TrimEmptyIff(rank.value);
    }
  }

  /** An assigned rank written without surrounding whitespace is present
      unless it is literally "Unset". */
  lemma CleanRankPresent(rank: string)
    requires rank != [] && !IsTrimChar(rank[0]) && !IsTrimChar(rank[|rank| - 1])
    requires rank != "Unset"
    ensures !RankMissing(Some(rank))
  {
    TrimKeepsCleanString(rank);
  }

  /** Index of the first application with the given status, as `->first()` returns it. */
  function FirstWithStatus(apps: seq<Application>, st: Status): (r: Option<nat>)
    ensures r.None? <==> forall i :: 0 <= i < |apps| ==> apps[i].status != st
    ensures r.Some? ==>
              && r.value < |apps| && apps[r.value].status == st
              && forall j :: 0 <= j < r.value ==> apps[j].status != st
  {
    if apps == [] then None
    else if apps[0].status == st then Some(0)
    else
      match FirstWithStatus(apps[1..], st)
      case None => None
      case Some(i) => Some(i + 1)
  }

  /** The KRAs still without submissions: all four when there is no draft,
      otherwise those whose submission count on the draft is zero, KRA I first. */
  function MissingKras(draft: Option<Application>): (missing: seq<Kra>)
    ensures draft.None? ==> missing == AllKras
    ensures draft.Some? ==> forall k :: k in missing <==> SubmissionCount(draft.value, k) == 0
    ensures forall i, j :: 0 <= i < j < |missing| ==> Ordinal(missing[i]) < Ordinal(missing[j])
  {
    match draft
    case None => AllKras
    case Some(d) =>
      (if d.instructions == 0 then [Instruction] else [])
      + (if d.researches == 0 then [Research] else [])
      + (if d.extensions == 0 then [Extension] else [])
      + (if d.professionalDevelopments == 0 then [ProfessionalDevelopment] else [])
  }

  /** The answer of the submission precheck. */
  datatype Precheck = RankNotSet | Incomplete(missing: seq<Kra>) | Ready

  /** The first draft application, if any: none exactly when no application
      is a draft, and otherwise a draft with no draft before it. */
  function DraftOf(u: Instructor): (r: Option<Application>)
    ensures r.None? <==> forall i :: 0 <= i < |u.applications| ==> u.applications[i].status != Draft
    ensures r.Some? ==>
              && r.value.status == Draft
              && exists i ::
                   && 0 <= i < |u.applications| && u.applications[i] == r.value
                   && forall j :: 0 <= j < i ==> u.applications[j].status != Draft
  {
    match FirstWithStatus(u.applications, Draft)
    case None => None
    case Some(i) => Some(u.applications[i])
  }

  /** The precheck: the rank must be set, then every KRA needs a submission on the draft. */
  function CheckSubmissions(u: Instructor): (r: Precheck)
    ensures RankMissing(u.facultyRank) <==> r == RankNotSet
    ensures r.Incomplete? ==> r.missing == MissingKras(DraftOf(u)) && r.missing != []
    ensures r.Ready? <==>
      !RankMissing(u.facultyRank) && DraftOf(u).Some?
      && forall k :: SubmissionCount(DraftOf(u).value, k) > 0
  {
    if RankMissing(u.facultyRank) then RankNotSet
    else
      var missing := MissingKras(DraftOf(u));
      assert missing != [] ==> missing[0] in missing;
      if missing == [] then Ready else Incomplete(missing)
  }

  /** What a submit attempt led to. */
  datatype SubmitOutcome = RankDenied | AlreadyPending | NoDraftFound | Submitted

  /** A submit attempt: refused when the rank is missing or an application is
      already pending evaluation; otherwise the first draft, if any, becomes
      pending evaluation and nothing else changes. */
  function SubmitEvaluation(u: Instructor): (r: (SubmitOutcome, Instructor))
    ensures r.0 == Submitted <==>
      !RankMissing(u.facultyRank) && DraftOf(u).Some?
      && forall i :: 0 <= i < |u.applications| ==> u.applications[i].status != PendingEvaluation
    ensures r.0 == RankDenied <==> RankMissing(u.facultyRank)
    ensures r.0 == AlreadyPending <==>
      !RankMissing(u.facultyRank)
      && exists i :: 0 <= i < |u.applications| && u.applications[i].status == PendingEvaluation
    ensures r.0 != Submitted ==> r.1 == u
    ensures r.0 == Submitted ==>
      var i := FirstWithStatus(u.applications, Draft).value;
      r.1 == u.(applications := u.applications[i := u.applications[i].(status := PendingEvaluation)])
  {
    if RankMissing(u.facultyRank) then (RankDenied, u)
    else if FirstWithStatus(u.applications, PendingEvaluation).Some? then (AlreadyPending, u)
    else
      match FirstWithStatus(u.applications, Draft)
      case None => (NoDraftFound, u)
      case Some(i) =>
        var apps := u.applications[i := u.applications[i].(status := PendingEvaluation)];
        (Submitted, u.(applications := apps))
  }

  /** A second submit right after a successful one is refused as a duplicate. */
  lemma SubmitIsOnce(u: Instructor)
    requires SubmitEvaluation(u).0 == Submitted
    ensures SubmitEvaluation(SubmitEvaluation(u).1).0 == AlreadyPending
  {
    var i := FirstWithStatus(u.applications, Draft).value;
    var v := SubmitEvaluation(u).1;
    assert v.applications[i].status == PendingEvaluation;
  }

  /** Submitting keeps every submission count and application, and turns exactly one draft into a pending one. */
  lemma SubmitKeepsSubmissions(u: Instructor)
    requires SubmitEvaluation(u).0 == Submitted
    ensures var v := SubmitEvaluation(u).1;
      |v.applications| == |u.applications| && v.facultyRank == u.facultyRank
      && (forall i, k :: 0 <= i < |u.applications| ==>
            SubmissionCount(v.applications[i], k) == SubmissionCount(u.applications[i], k))
      && exists i :: 0 <= i < |u.applications| && u.applications[i].status == Draft
            && v.applications[i].status == PendingEvaluation
            && forall j :: 0 <= j < |u.applications| && j != i ==> v.applications[j] == u.applications[j]
  {
    var i := FirstWithStatus(u.applications, Draft).value;
    var v := SubmitEvaluation(u).1;
    assert v.applications == u.applications[i := u.applications[i].(status := PendingEvaluation)];
    StatusChangeKeepsCounts(u.applications, i);
  }

  /** Changing one application's status changes nothing else. */
  lemma StatusChangeKeepsCounts(apps: seq<Application>, i: nat)
    requires i < |apps|
    ensures var w := apps[i := apps[i].(status := PendingEvaluation)];
      |w| == |apps| && w[i].status == PendingEvaluation
      && (forall j, k :: 0 <= j < |apps| ==> SubmissionCount(w[j], k) == SubmissionCount(apps[j], k))
      && forall j :: 0 <= j < |apps| && j != i ==> w[j] == apps[j]
  {
  }
}

=== FILE: areas.dfy ===
/** The four Key Result Areas (KRAs) every application is scored on. */
module Areas {

  /** `kra1` .. `kra4` in the scoring engine; KRA I .. KRA IV on the instructor pages. */
  datatype Kra = Instruction | Research | Extension | ProfessionalDevelopment

  /** The KRAs in their fixed order, KRA I first. */
  const AllKras: seq<Kra> := [Instruction, Research, Extension, ProfessionalDevelopment]

  /** Position of a KRA in `AllKras`. */
  function Ordinal(k: Kra): (n: nat)
    ensures n < |AllKras| && AllKras[n] == k
  {
    match k
    case Instruction => 0
    case Research => 1
    case Extension => 2
    case ProfessionalDevelopment => 3
  }
}

=== FILE: document_ai.dfy ===
/** The decision logic the document checks apply to the entities Google
    Document AI extracted from an upload: name normalisation and word-overlap
    similarity, required-field and classification checks, and first-non-empty
    extraction for the certificate autofill. */
module DocumentAI {
  import opened Wrappers
  import opened Text

  /* ------------------------------------------------------------ entities */

  /** One extracted entity: its type label and its mention text. */
  datatype Entity = Entity(kind: string, mention: string)

  predicate HasKind(es: seq<Entity>, kind: string) {
    exists i :: 0 <= i < |es| && es[i].kind == kind
  }

  /** Entity `i` is the last one of type `kind`. */
  predicate LastOfKind(es: seq<Entity>, kind: string, i: int) {
    0 <= i < |es| && es[i].kind == kind && forall j :: i < j < |es| ==> es[j].kind != kind
  }

  /** The extracted-data map built by assigning `data[type] = mention` for
      every entity in order, so the last mention of a type wins. */
  function LastMentions(es: seq<Entity>): (data: map<string, string>)
    ensures forall k :: k in data <==> HasKind(es, k)
    ensures forall k :: k in data ==> exists i :: LastOfKind(es, k, i) && data[k] == es[i].mention
  {
    if es == [] then map[]
    else
      var init := es[..|es| - 1];
      var e := es[|es| - 1];
      var m := LastMentions(init);
      HasKindSnoc(es);
      var r := m[e.kind := e.mention];
      assert forall k :: k in r ==> exists i :: LastOfKind(es, k, i) && r[k] == es[i].mention by {
        forall k | k in r ensures exists i :: LastOfKind(es, k, i) && r[k] == es[i].mention {
          if k == e.kind {
            assert LastOfKind(es, k, |es| - 1);
          } else {
            LastOfKindSnoc(es, k);
          }
        }
      }
      r
  }

  /** A type occurs in a non-empty list iff it occurs before the last entity or is the last one's. */
  lemma HasKindSnoc(es: seq<Entity>)
    requires es != []
    ensures forall k :: HasKind(es, k) <==> HasKind(es[..|es| - 1], k) || es[|es| - 1].kind == k
  {
    var init := es[..|es| - 1];
    forall k | HasKind(es, k) && es[|es| - 1].kind != k ensures HasKind(init, k) {
      var i :| 0 <= i < |es| && es[i].kind == k;
      assert init[i] == es[i];
    }
    forall k | HasKind(init, k) ensures HasKind(es, k) {
      var i :| 0 <= i < |init| && init[i].kind == k;
      assert es[i] == init[i];
    }
  }

  /** The last entity of a type other than the final entity's is the same with or without it. */
  lemma LastOfKindSnoc(es: seq<Entity>, k: string)
    requires es != [] && es[|es| - 1].kind != k
    ensures forall i :: LastOfKind(es[..|es| - 1], k, i) ==> LastOfKind(es, k, i)
  {
  }

  /** The required field names, in the order given, for which no entity was extracted. */
  function MissingKinds(required: seq<string>, es: seq<Entity>): (missing: seq<string>)
    ensures forall f :: f in missing <==> f in required && !HasKind(es, f)
    ensures |missing| <= |required|
  {
    if required == [] then []
    else
      (if HasKind(es, required[0]) then [] else [required[0]]) + MissingKinds(required[1..], es)
  }

  /** One required field is reported exactly when it was not extracted. */
  lemma MissingKindsOne(f: string, es: seq<Entity>)
    ensures MissingKinds([f], es) == if HasKind(es, f) then [] else [f]
  {
  }

  /** The missing fields of a concatenated list are those of each part, in
      order: the report keeps the order in which the fields are required. */
  lemma {:induction false} MissingKindsConcat(a: seq<string>, b: seq<string>, es: seq<Entity>)
    ensures MissingKinds(a + b, es) == MissingKinds(a, es) + MissingKinds(b, es)
  {
    if a != [] {
      assert (a + b)[0] == a[0];
      assert (a + b)[1..] == a[1..] + b;
      MissingKindsConcat(a[1..], b, es);
    } else {
      assert a + b == b;
    }
  }

  /** With nothing extracted, every required field is reported, in order. */
  lemma {:induction false} MissingKindsOfNothing(required: seq<string>)
    ensures MissingKinds(required, []) == required
  {
    if required != [] {
      var none: seq<Entity> := [];
      assert !HasKind(none, required[0]);
      assert MissingKinds(required, none) == [required[0]] + MissingKinds(required[1..], none);
      MissingKindsOfNothing(required[1..]);
      assert required == [required[0]] + required[1..];
    }
  }

  /* ---------------------------------------------------- name similarity */

  /** The whitespace class `\s` of the regular expression the normaliser
      uses: space, tab, line feed, vertical tab, form feed, carriage return. */
  predicate IsRegexSpace(c: char) {
    c == ' ' || c == '\t' || c == '\n' || c == '\U{0B}' || c == '\U{0C}' || c == '\r'
  }

  /** The characters normalisation keeps: lower-case ASCII letters and whitespace. */
  predicate IsNameChar(c: char) {
    'a' <= c <= 'z' || IsRegexSpace(c)
  }

  /** ASCII lower-casing, as `strtolower` does. */
  function LowerAscii(c: char): (r: char)
    ensures 'A' <= c <= 'Z' ==> r as int == c as int + 32 && 'a' <= r <= 'z'
    ensures !('A' <= c <= 'Z') ==> r == c
  {
    if 'A' <= c <= 'Z' then (c as int + 32) as char else c
  }

  /** Lower-cases the name, then deletes every character other than a–z and whitespace. */
  function Normalize(name: string): (r: string)
    ensures |r| <= |name|
    ensures forall i :: 0 <= i < |r| ==> IsNameChar(r[i])
  {
    if name == [] then []
    else
      var c := LowerAscii(name[0]);
      (if IsNameChar(c) then [c] else []) + Normalize(name[1..])
  }

  /** A name made only of kept characters is its own normal form. */
  lemma {:induction false} NormalizeFixesNameChars(name: string)
    requires forall i :: 0 <= i < |name| ==> IsNameChar(name[i])
    ensures Normalize(name) == name
  {
    if name != [] {
      NormalizeFixesNameChars(name[1..]);
    }
  }

  /** Normalisation works character by character: a character is lower-cased
      and kept when it is then a letter a–z or whitespace, and dropped otherwise. */
  lemma NormalizeChar(c: char)
    ensures Normalize([c]) == if IsNameChar(LowerAscii(c)) then [LowerAscii(c)] else []
  {
    assert [c][1..] == [];
  }

  /** Normalising a concatenation normalises each part. */
  lemma {:induction false} NormalizeConcat(a: string, b: string)
    ensures Normalize(a + b) == Normalize(a) + Normalize(b)
    decreases |a|
  {
    if a == [] {
      assert a + b == b;
    } else {
      assert (a + b)[0] == a[0];
      assert (a + b)[1..] == a[1..] + b;
      NormalizeConcat(a[1..], b);
    }
  }

  /** Normalising twice is the same as normalising once. */
  lemma NormalizeIdempotent(name: string)
    ensures Normalize(Normalize(name)) == Normalize(name)
  {
    NormalizeFixesNameChars(Normalize(name));
  }

  /** Upper- and lower-case spellings of a name normalise alike. */
  lemma {:induction false} NormalizeIgnoresCase(a: string, b: string)
    requires |a| == |b|
    requires forall i :: 0 <= i < |a| ==> LowerAscii(a[i]) == LowerAscii(b[i])
    ensures Normalize(a) == Normalize(b)
  {
    if a != [] {
      NormalizeIgnoresCase(a[1..], b[1..]);
    }
  }

  /** The words of a name: the non-empty pieces of its normal form split on a space. */
  function NameWords(name: string): (words: seq<string>)
    ensures forall i :: 0 <= i < |words| ==> words[i] != [] && ' ' !in words[i]
  {
    NonEmpty(Explode(Normalize(name), ' '))
  }

  /** The words of two names joined by a space are the words of the first
      followed by the words of the second, repeats included. */
  lemma NameWordsConcat(a: string, b: string)
    ensures NameWords(a + " " + b) == NameWords(a) + NameWords(b)
  {
    var na, nb := Normalize(a), Normalize(b);
    NormalizeConcat(a + " ", b);
    NormalizeConcat(a, " ");
    NormalizeChar(' ');
    assert Normalize(a + " " + b) == na + [' '] + nb;
    ExplodeConcat(na, nb, ' ');
    NonEmptyConcat(Explode(na, ' '), Explode(nb, ' '));
  }

  /** A single word of lower-case letters is its own list of words. */
  lemma NameWordsOfWord(w: string)
    requires w != [] && forall i :: 0 <= i < |w| ==> 'a' <= w[i] <= 'z'
    ensures NameWords(w) == [w]
  {
    NormalizeFixesNameChars(w);
    assert ' ' !in w;
    assert Explode(w, ' ') == [w];
    assert [w][1..] == [];
  }

  /** Words of lower-case letters joined by single spaces split back into
      exactly those words, in order. */
  lemma {:induction false} NameWordsOfWords(ws: seq<string>)
    requires |ws| >= 1
    requires forall k :: 0 <= k < |ws| ==> ws[k] != [] && forall i :: 0 <= i < |ws[k]| ==> 'a' <= ws[k][i] <= 'z'
    ensures NameWords(Implode(ws, ' ')) == ws
    decreases |ws|
  {
    NameWordsOfWord(ws[0]);
    if |ws| > 1 {
      NameWordsOfWords(ws[1..]);
      assert Implode(ws, ' ') == ws[0] + " " + Implode(ws[1..], ' ');
      NameWordsConcat(ws[0], Implode(ws[1..], ' '));
      assert ws == [ws[0]] + ws[1..];
    }
  }

  /** How many of the expected words (counted with repetition) occur among
      the extracted words. */
  function MatchCount(expected: seq<string>, extracted: seq<string>): (n: nat)
    ensures n <= |expected|
    ensures n == |expected| <==> forall i :: 0 <= i < |expected| ==> expected[i] in extracted
  {
    if expected == [] then 0
    else
      var rest := MatchCount(expected[1..], extracted);
      assert forall i :: 1 <= i < |expected| ==> expected[i] == expected[1..][i - 1];
      (if expected[0] in extracted then 1 else 0) + rest
  }

  /** Appending one expected word adds one to the count exactly when that word was found. */
  lemma {:induction false} MatchCountSnoc(expected: seq<string>, w: string, extracted: seq<string>)
    ensures MatchCount(expected + [w], extracted) == MatchCount(expected, extracted) + (if w in extracted then 1 else 0)
    decreases |expected|
  {
    if expected == [] {
      assert expected + [w] == [w];
      assert [w][1..] == [];
    } else {
      assert (expected + [w])[0] == expected[0];
      assert (expected + [w])[1..] == expected[1..] + [w];
      MatchCountSnoc(expected[1..], w, extracted);
    }
  }

  /** The match count is the number of positions of the expected list whose
      word occurs among the extracted words, as `count(array_intersect(…))`
      counts them: a repeated expected word counts once per repetition. */
  lemma {:induction false} MatchCountIsFoundPositions(expected: seq<string>, extracted: seq<string>)
    ensures MatchCount(expected, extracted) == |set i | 0 <= i < |expected| && expected[i] in extracted|
    decreases |expected|
  {
    if expected != [] {
      var n := |expected| - 1;
      var init, w := expected[..n], expected[n];
      assert expected == init + [w];
      MatchCountIsFoundPositions(init, extracted);
      MatchCountSnoc(init, w, extracted);
      var before := set i | 0 <= i < |init| && init[i] in extracted;
      var after := set i | 0 <= i < |expected| && expected[i] in extracted;
      if w in extracted {
        assert after == before + {n};
        assert n !in before;
      } else {
        assert after == before;
      }
    }
  }

  /** The similarity threshold both document checks use. */
  const MatchThreshold: real := 0.7

  /** The share of expected words that were found; the divisor is at least 1. */
  function Similarity(expected: seq<string>, extracted: seq<string>): (r: real)
    ensures 0.0 <= r <= 1.0
  {
    var m := MatchCount(expected, extracted);
    var d := if |expected| > 1 then |expected| else 1;
    RatioBounds(m, d);
    (m as real) / (d as real)
  }

  /** A count no larger than its positive divisor gives a ratio in [0, 1]. */
  lemma RatioBounds(m: nat, d: nat)
    requires 1 <= d && m <= d
    ensures 0.0 <= (m as real) / (d as real) <= 1.0
  {
    var q := (m as real) / (d as real);
    assert q * (d as real) == m as real;
  }

  /** The extracted name matches the expected one when the similarity of their
      words reaches the threshold. */
  predicate NameMatches(expected: string, extracted: string) {
    Similarity(NameWords(expected), NameWords(extracted)) >= MatchThreshold
  }

  /** The same test in whole numbers: ten times the match count reaches seven
      times the (at least 1) number of expected words. */
  lemma NameMatchesIff(expected: string, extracted: string)
    ensures var ew := NameWords(expected);
      NameMatches(expected, extracted) <==>
        10 * MatchCount(ew, NameWords(extracted)) >= 7 * (if |ew| > 1 then |ew| else 1)
  {
    var ew := NameWords(expected);
    var d := if |ew| > 1 then |ew| else 1;
    RatioAtLeast(MatchCount(ew, NameWords(extracted)), d);
  }

  /** For a positive divisor, `m / d >= 0.7` is `10 m >= 7 d`. */
  lemma RatioAtLeast(m: nat, d: nat)
    requires d >= 1
    ensures (m as real) / (d as real) >= MatchThreshold <==> 10 * m >= 7 * d
  {
    var mr, dr := m as real, d as real;
    var q := mr / dr;
    assert q * dr == mr;
    ScaleBoth(q, 0.7, dr);
    assert (10 * m) as real == 10.0 * mr;
    assert (7 * d) as real == 7.0 * dr;
  }

  /** Multiplying both sides by a positive factor keeps an inequality. */
  lemma ScaleBoth(a: real, b: real, c: real)
    requires c > 0.0
    ensures a >= b <==> a * c >= b * c
  {
    assert (a - b) * c == a * c - b * c;
    if a >= b {
      assert (a - b) * c >= 0.0;
    } else {
      assert (b - a) * c > 0.0;
    }
  }

  /** An expected name with no words never matches: nothing is counted and
      the divisor is 1. */
  lemma EmptyNameNeverMatches(expected: string, extracted: string)
    requires NameWords(expected) == []
    ensures !NameMatches(expected, extracted)
  {
  }

  /** Every name with at least one word matches itself. */
  lemma NameMatchesItself(name: string)
    requires NameWords(name) != []
    ensures NameMatches(name, name)
  {
    var w := NameWords(name);
    assert MatchCount(w, w) == |w|;
    RatioAtLeast(|w|, |w|);
  }

  /* ------------------------------------------------------ check verdicts */

  /** A value in the extracted data: a single mention, or the author list. */
  datatype Value = Text(text: string) | TextList(items: seq<string>)

  /** Why a document was accepted or rejected. */
  datatype Reason =
    | MissingFields(fields: seq<string>)
    | NoAuthors
    | UploaderNotAuthor(uploader: string)
    | UnacceptedType
    | NameMismatch(extractedName: string)
    | ResearchValidated
    | CertificateValidated

  const MissingText: string := "Missing required fields: "
  const NoAuthorsText: string := "No authors extracted from the document."
  const UploaderText: string := "Uploader ('"
  const NotFoundText: string := "') not found in Author List."
  const RejectedText: string := "Document rejected: "
  const UnacceptedText: string := RejectedText + "Classified as an unaccepted type."
  const ExtractedText: string := "Extracted name ('"
  const MismatchText: string := "') does not match uploader name."
  const ResearchValidText: string := "Research document validated successfully."
  const CertificateValidText: string := "Certificate validated successfully."

  /** The message shown for a reason, with the uploader's or extracted name
      interpolated where the source does so. */
  function Message(r: Reason): string {
    match r
    case MissingFields(fs) => MissingText + JoinComma(fs)
    case NoAuthors => NoAuthorsText
    case UploaderNotAuthor(u) => UploaderText + u + NotFoundText
    case UnacceptedType => UnacceptedText
    case NameMismatch(n) => ExtractedText + n + MismatchText
    case ResearchValidated => ResearchValidText
    case CertificateValidated => CertificateValidText
  }

  /** The first character of each message, which tells the reasons apart. */
  function MessageHead(r: Reason): char {
    match r
    case MissingFields(_) => 'M'
    case NoAuthors => 'N'
    case UploaderNotAuthor(_) => 'U'
    case UnacceptedType => 'D'
    case NameMismatch(_) => 'E'
    case ResearchValidated => 'R'
    case CertificateValidated => 'C'
  }

  /** Every message starts with its reason's head character. */
  lemma MessageStartsWithHead(r: Reason)
    ensures Message(r) != [] && Message(r)[0] == MessageHead(r)
  {
    match r
    case MissingFields(fs) =>
      assert MissingText == "M" + MissingText[1..];
      assert Message(r) == MissingText + JoinComma(fs);
    case NoAuthors =>
      assert NoAuthorsText == "N" + NoAuthorsText[1..];
    case UploaderNotAuthor(u) =>
      assert UploaderText == "U" + UploaderText[1..];
      assert Message(r) == UploaderText + u + NotFoundText;
    case UnacceptedType =>
      assert RejectedText == "D" + RejectedText[1..];
      assert UnacceptedText[0] == RejectedText[0];
    case NameMismatch(n) =>
      assert ExtractedText == "E" + ExtractedText[1..];
      assert Message(r) == ExtractedText + n + MismatchText;
    case ResearchValidated =>
      assert ResearchValidText == "R" + ResearchValidText[1..];
    case CertificateValidated =>
      assert CertificateValidText == "C" + CertificateValidText[1..];
  }

  /** The middle of `p + x + q` is `x`, whatever `p` and `q` are. */
  lemma MiddleOf(p: string, x: string, q: string, y: string)
    requires p + x + q == p + y + q
    ensures x == y
  {
    assert |x| == |y|;
    assert x == (p + x + q)[|p|..|p| + |x|];
    assert y == (p + y + q)[|p|..|p| + |y|];
  }

  /** A message tells which reason produced it, and apart from the
      missing-fields list (whose comma join is ambiguous) it gives back the
      whole reason, the interpolated name included. */
  lemma MessageDeterminesReason(r1: Reason, r2: Reason)
    requires Message(r1) == Message(r2)
    ensures MessageHead(r1) == MessageHead(r2)
    ensures !r1.MissingFields? ==> r1 == r2
  {
    MessageStartsWithHead(r1);
    MessageStartsWithHead(r2);
    if r1.UploaderNotAuthor? && r2.UploaderNotAuthor? {
      MiddleOf(UploaderText, r1.uploader, NotFoundText, r2.uploader);
    } else if r1.NameMismatch? && r2.NameMismatch? {
      MiddleOf(ExtractedText, r1.extractedName, MismatchText, r2.extractedName);
    }
  }

  /** `implode(', ', xs)`: the pieces in order, with ", " between neighbours. */
  function JoinComma(xs: seq<string>): (s: string)
    ensures xs != [] ==> |s| >= 2 * (|xs| - 1) && xs[0] <= s
    ensures |xs| == 1 ==> s == xs[0]
  {
    if xs == [] then ""
    else if |xs| == 1 then xs[0]
    else xs[0] + ", " + JoinComma(xs[1..])
  }

  /** Joining two non-empty lists is joining each and putting ", " between. */
  lemma {:induction false} JoinCommaConcat(a: seq<string>, b: seq<string>)
    requires a != [] && b != []
    ensures JoinComma(a + b) == JoinComma(a) + ", " + JoinComma(b)
  {
    if |a| == 1 {
      assert (a + b)[1..] == b;
    } else {
      assert (a + b)[1..] == a[1..] + b;
      JoinCommaConcat(a[1..], b);
    }
  }

  /** Two names are joined with a comma and a space between them. */
  lemma JoinCommaPair(a: string, b: string)
    ensures JoinComma([a, b]) == a + ", " + b
  {
    assert [a, b][1..] == [b];
  }

  /** The missing-fields message for a research document with neither required field. */
  lemma MissingFieldsMessage()
    ensures Message(MissingFields(ResearchRequired)) == "Missing required fields: Author_List, Document_Title"
  {
    JoinCommaPair(AuthorList, DocumentTitle);
  }

  /** The missing-fields message for a certificate with nothing extracted
      lists the three fields in their required order. */
  lemma MissingCertificateMessage()
    ensures Message(MissingFields(MissingKinds(CertificateRequired, [])))
         == MissingText + UserFullName + ", " + IssuingOrganization + ", " + DateCompleted
  {
    MissingKindsOfNothing(CertificateRequired);
    var fs := CertificateRequired;
    assert fs[1..] == [IssuingOrganization, DateCompleted];
    JoinCommaPair(IssuingOrganization, DateCompleted);
  }

  /** The outcome of a document check: validity, reason and extracted data. */
  datatype Verdict = Verdict(isValid: bool, reason: Reason, data: map<string, Value>)

  function AsTexts(m: map<string, string>): (r: map<string, Value>)
    ensures r.Keys == m.Keys
    ensures forall k :: k in r ==> r[k] == Text(m[k])
  {
    map k | k in m :: Text(m[k])
  }

  /* ------------------------------------------------------- research check */

  const AuthorList: string := "Author_List"
  const DocumentTitle: string := "Document_Title"
  const ResearchRequired: seq<string> := [AuthorList, DocumentTitle]

  /** The research check's extracted data: the last mention of every type
      except `Author_List`. */
  function ResearchData(es: seq<Entity>): (data: map<string, string>)
    ensures forall k :: k in data <==> HasKind(es, k) && k != AuthorList
    ensures forall k :: k in data ==> exists i :: LastOfKind(es, k, i) && data[k] == es[i].mention
  {
    var m := LastMentions(es);
    map k | k in m && k != AuthorList :: m[k]
  }

  /** The mentions of all `Author_List` entities, in extraction order and
      with repeats (the order and repeats follow from `AuthorsConcat`). */
  function Authors(es: seq<Entity>): (authors: seq<string>)
    ensures authors == [] <==> !HasKind(es, AuthorList)
    ensures forall a :: a in authors ==> Entity(AuthorList, a) in es
    ensures forall i :: 0 <= i < |es| && es[i].kind == AuthorList ==> es[i].mention in authors
  {
    if es == [] then []
    else
      var rest := Authors(es[1..]);
      assert HasKind(es, AuthorList) <==> es[0].kind == AuthorList || HasKind(es[1..], AuthorList) by {
        if HasKind(es, AuthorList) && es[0].kind != AuthorList {
          var i :| 0 <= i < |es| && es[i].kind == AuthorList;
          assert es[1..][i - 1] == es[i];
        }
        if HasKind(es[1..], AuthorList) {
          var i :| 0 <= i < |es[1..]| && es[1..][i].kind == AuthorList;
          assert es[i + 1] == es[1..][i];
        }
      }
      assert forall i :: 1 <= i < |es| ==> es[i] == es[1..][i - 1];
      (if es[0].kind == AuthorList then [es[0].mention] else []) + rest
  }

  /** One entity contributes its mention exactly when it is an author entry. */
  lemma AuthorsOne(e: Entity)
    ensures Authors([e]) == if e.kind == AuthorList then [e.mention] else []
  {
    assert [e][1..] == [];
  }

  /** The author list of a concatenation is the two author lists in order:
      every author entry is appended, none is dropped or merged. */
  lemma {:induction false} AuthorsConcat(a: seq<Entity>, b: seq<Entity>)
    ensures Authors(a + b) == Authors(a) + Authors(b)
    decreases |a|
  {
    if a == [] {
      assert a + b == b;
    } else {
      assert (a + b)[0] == a[0];
      assert (a + b)[1..] == a[1..] + b;
      AuthorsConcat(a[1..], b);
    }
  }

  /** Index of the first element satisfying `p`, if any. */
  function FirstWhere<T>(p: T -> bool, xs: seq<T>): (r: Option<nat>)
    ensures r.None? <==> forall i :: 0 <= i < |xs| ==> !p(xs[i])
    ensures r.Some? ==>
              && r.value < |xs| && p(xs[r.value])
              && forall j :: 0 <= j < r.value ==> !p(xs[j])
  {
    if xs == [] then None
    else if p(xs[0]) then Some(0)
    else
      assert forall i :: 1 <= i < |xs| ==> xs[i] == xs[1..][i - 1];
      match FirstWhere(p, xs[1..])
      case None => None
      case Some(i) => Some(i + 1)
  }

  /** Index of the first author whose name matches the uploader's, if any;
      the scan stops at the first match. */
  function FirstMatchingAuthor(uploader: string, authors: seq<string>): (r: Option<nat>)
    ensures r.None? <==> forall i :: 0 <= i < |authors| ==> !NameMatches(uploader, authors[i])
    ensures r.Some? ==>
              && r.value < |authors| && NameMatches(uploader, authors[r.value])
              && forall j :: 0 <= j < r.value ==> !NameMatches(uploader, authors[j])
  {
    FirstWhere(a => NameMatches(uploader, a), authors)
  }

  /** Some author's name matches the uploader's. */
  predicate UploaderListed(uploader: string, authors: seq<string>) {
    exists i :: 0 <= i < |authors| && NameMatches(uploader, authors[i])
  }

  /** The research-document check applied to the extractor's entities. */
  function ValidateResearch(es: seq<Entity>, uploader: string): (v: Verdict)
    ensures v.isValid <==>
      HasKind(es, AuthorList) && HasKind(es, DocumentTitle) && UploaderListed(uploader, Authors(es))
    ensures !(HasKind(es, AuthorList) && HasKind(es, DocumentTitle)) ==>
      v.reason == MissingFields(MissingKinds(ResearchRequired, es))
    ensures HasKind(es, AuthorList) && HasKind(es, DocumentTitle) && !UploaderListed(uploader, Authors(es)) ==>
      v.reason == UploaderNotAuthor(uploader)
    ensures v.isValid ==> v.reason == ResearchValidated
    ensures v.isValid ==> v.data == AsTexts(ResearchData(es))[AuthorList := TextList(Authors(es))]
    ensures !v.isValid ==> v.data == AsTexts(ResearchData(es))
  {
    var data := AsTexts(ResearchData(es));
    var missing := MissingKinds(ResearchRequired, es);
    var authors := Authors(es);
    MissingResearchIff(es);
    if missing != [] then Verdict(false, MissingFields(missing), data)
    else if authors == [] then Verdict(false, NoAuthors, data)
    else if FirstMatchingAuthor(uploader, authors).None? then
      Verdict(false, UploaderNotAuthor(uploader), data)
    else Verdict(true, ResearchValidated, data[AuthorList := TextList(authors)])
  }

  /** Nothing is missing exactly when both an author and a title were extracted. */
  lemma MissingResearchIff(es: seq<Entity>)
    ensures MissingKinds(ResearchRequired, es) == [] <==> HasKind(es, AuthorList) && HasKind(es, DocumentTitle)
  {
    var m := MissingKinds(ResearchRequired, es);
    assert ResearchRequired[0] == AuthorList;
    assert ResearchRequired[1] == DocumentTitle;
    if m == [] {
      assert AuthorList !in m;
    }
  }

  /** The "no authors" rejection is never reached: passing the required-field
      check already means an author was extracted. */
  lemma NoAuthorsUnreachable(es: seq<Entity>, uploader: string)
    ensures ValidateResearch(es, uploader).reason != NoAuthors
  {
    MissingResearchIff(es);
  }

  /** An uploader whose name has no words is never accepted as an author. */
  lemma ResearchRejectsWordlessUploader(es: seq<Entity>, uploader: string)
    requires NameWords(uploader) == []
    ensures !ValidateResearch(es, uploader).isValid
  {
    var authors := Authors(es);
    forall i | 0 <= i < |authors| ensures !NameMatches(uploader, authors[i]) {
      EmptyNameNeverMatches(uploader, authors[i]);
    }
  }

  /* ---------------------------------------------------- certificate check */

  const UserFullName: string := "User_Full_Name"
  const IssuingOrganization: string := "Issuing_Organization"
  const DateCompleted: string := "Date_Completed"
  const CredentialType: string := "Credential_Type"
  const CertificateRequired: seq<string> := [UserFullName, IssuingOrganization, DateCompleted]

  /** The classifier labels that are accepted. */
  predicate IsAcceptedClass(kind: string) {
    kind == "CERTIFICATE" || kind == "DIPLOMA"
  }

  /** Entity `i` carries the first accepted label. */
  predicate FirstAccepted(es: seq<Entity>, i: int) {
    0 <= i < |es| && IsAcceptedClass(es[i].kind)
    && forall j :: 0 <= j < i ==> !IsAcceptedClass(es[j].kind)
  }

  /** The classifier's verdict: the first accepted label, if any. */
  function ClassifiedType(es: seq<Entity>): (r: Option<string>)
    ensures r.None? <==> forall i :: 0 <= i < |es| ==> !IsAcceptedClass(es[i].kind)
    ensures r.Some? ==>
              && IsAcceptedClass(r.value)
              && exists i :: FirstAccepted(es, i) && es[i].kind == r.value
  {
    if es == [] then None
    else if IsAcceptedClass(es[0].kind) then Some(es[0].kind)
    else
      var r := ClassifiedType(es[1..]);
      assert forall i :: 1 <= i < |es| ==> es[i] == es[1..][i - 1];
      if r.Some? then
        var i :| FirstAccepted(es[1..], i) && es[1..][i].kind == r.value;
        assert FirstAccepted(es, i + 1);
        r
      else r
  }

  /** The certificate check's extracted data: the last mention of each required type. */
  function CertificateData(es: seq<Entity>): (data: map<string, string>)
    ensures forall k :: k in data <==> HasKind(es, k) && k in CertificateRequired
    ensures forall k :: k in data ==> exists i :: LastOfKind(es, k, i) && data[k] == es[i].mention
  {
    var m := LastMentions(es);
    map k | k in m && k in CertificateRequired :: m[k]
  }

  /** Nothing is missing exactly when every required certificate field was extracted. */
  lemma MissingCertificateIff(es: seq<Entity>)
    ensures MissingKinds(CertificateRequired, es) == [] <==>
      HasKind(es, UserFullName) && HasKind(es, IssuingOrganization) && HasKind(es, DateCompleted)
  {
    var m := MissingKinds(CertificateRequired, es);
    assert CertificateRequired[0] == UserFullName;
    assert CertificateRequired[1] == IssuingOrganization;
    assert CertificateRequired[2] == DateCompleted;
    if m == [] {
      assert UserFullName !in m && IssuingOrganization !in m && DateCompleted !in m;
    } else {
      assert m[0] in CertificateRequired;
    }
  }

  /** The certificate check: the classifier's entities decide the document
      type, the extractor's entities supply the fields and the name. */
  function ValidateCertificate(classified: seq<Entity>, extracted: seq<Entity>, uploader: string): (v: Verdict)
    ensures v.isValid <==>
      ClassifiedType(classified).Some?
      && HasKind(extracted, UserFullName) && HasKind(extracted, IssuingOrganization)
      && HasKind(extracted, DateCompleted)
      && exists i :: LastOfKind(extracted, UserFullName, i) && NameMatches(uploader, extracted[i].mention)
    ensures ClassifiedType(classified).None? ==> v == Verdict(false, UnacceptedType, map[])
    ensures ClassifiedType(classified).Some? && MissingKinds(CertificateRequired, extracted) != [] ==>
      v.reason == MissingFields(MissingKinds(CertificateRequired, extracted))
    ensures ClassifiedType(classified).Some? ==> v.data == AsTexts(CertificateData(extracted))
    ensures ClassifiedType(classified).Some? && MissingKinds(CertificateRequired, extracted) == [] && !v.isValid ==>
      exists i :: LastOfKind(extracted, UserFullName, i) && v.reason == NameMismatch(extracted[i].mention)
    ensures v.isValid ==> v.reason == CertificateValidated
  {
    if ClassifiedType(classified).None? then Verdict(false, UnacceptedType, map[])
    else
      var fields := CertificateData(extracted);
      var data := AsTexts(fields);
      var missing := MissingKinds(CertificateRequired, extracted);
      MissingCertificateIff(extracted);
      if missing != [] then Verdict(false, MissingFields(missing), data)
      else
        assert UserFullName in fields;
        var name := fields[UserFullName];
        assert exists i :: LastOfKind(extracted, UserFullName, i) && name == extracted[i].mention;
        LastOfKindUnique(extracted, UserFullName);
        if !NameMatches(uploader, name) then Verdict(false, NameMismatch(name), data)
        else Verdict(true, CertificateValidated, data)
  }

  /** At most one entity is the last of its type. */
  lemma LastOfKindUnique(es: seq<Entity>, kind: string)
    ensures forall i, j :: LastOfKind(es, kind, i) && LastOfKind(es, kind, j) ==> i == j
  {
  }

  /* ---------------------------------------------- certificate autofill */

  const AutofillKinds: seq<string> := [UserFullName, IssuingOrganization, DateCompleted, CredentialType]

  /** PHP's `empty()` on a string: true for "" and for "0". */
  predicate IsEmptyText(s: string) {
    s == "" || s == "0"
  }

  /** Entity `i` is of type `kind` with a non-empty mention. */
  predicate UsableMention(es: seq<Entity>, kind: string, i: int) {
    0 <= i < |es| && es[i].kind == kind && !IsEmptyText(es[i].mention)
  }

  /** Entity `i` holds the first non-empty mention of type `kind`. */
  predicate FirstUsable(es: seq<Entity>, kind: string, i: int) {
    UsableMention(es, kind, i) && forall j :: 0 <= j < i ==> !UsableMention(es, kind, j)
  }

  /** The first non-empty mention of a type, if any. */
  function FirstMention(es: seq<Entity>, kind: string): (r: Option<string>)
    ensures r.None? <==> forall i :: 0 <= i < |es| ==> !UsableMention(es, kind, i)
    ensures r.Some? ==> exists i :: FirstUsable(es, kind, i) && es[i].mention == r.value
  {
    if es == [] then None
    else if es[0].kind == kind && !IsEmptyText(es[0].mention) then
      assert UsableMention(es, kind, 0);
      Some(es[0].mention)
    else
      var r := FirstMention(es[1..], kind);
      assert forall i :: 0 < i < |es| ==> (UsableMention(es, kind, i) <==> UsableMention(es[1..], kind, i - 1));
      if r.Some? then
        var i :| FirstUsable(es[1..], kind, i) && es[1..][i].mention == r.value;
        assert FirstUsable(es, kind, i + 1);
        r
      else r
  }

  /** The four autofill fields; `None` where nothing was extracted. */
  datatype Autofill = Autofill(
    fullName: Option<string>,
    organization: Option<string>,
    dateCompleted: Option<string>,
    credentialType: Option<string>)

  datatype AutofillResult = Extracted(fields: Autofill) | NothingExtracted

  /** The certificate autofill: the first non-empty mention of each listed
      type, other types ignored; it fails when no listed type had a mention. */
  function ExtractCertificateData(es: seq<Entity>): (r: AutofillResult)
    ensures r.NothingExtracted? <==>
      forall i :: 0 <= i < |es| && es[i].kind in AutofillKinds ==> IsEmptyText(es[i].mention)
    ensures r.Extracted? ==>
      r.fields == Autofill(FirstMention(es, UserFullName), FirstMention(es, IssuingOrganization),
                           FirstMention(es, DateCompleted), FirstMention(es, CredentialType))
  {
    var fields := Autofill(FirstMention(es, UserFullName), FirstMention(es, IssuingOrganization),
                           FirstMention(es, DateCompleted), FirstMention(es, CredentialType));
    assert fields == Autofill(None, None, None, None) <==>
      forall i :: 0 <= i < |es| && es[i].kind in AutofillKinds ==> IsEmptyText(es[i].mention)
    by {
      if fields == Autofill(None, None, None, None) {
        forall i | 0 <= i < |es| && es[i].kind in AutofillKinds ensures IsEmptyText(es[i].mention) {
          var k := es[i].kind;
          if k == UserFullName || k == IssuingOrganization || k == DateCompleted {
            assert !UsableMention(es, k, i);
          } else {
            assert k == CredentialType;
            assert !UsableMention(es, k, i);
          }
        }
      }
      assert AutofillKinds[0] == UserFullName && AutofillKinds[1] == IssuingOrganization;
      assert AutofillKinds[2] == DateCompleted && AutofillKinds[3] == CredentialType;
    }
    if fields == Autofill(None, None, None, None) then NothingExtracted else Extracted(fields)
  }
}

=== FILE: forms.dfy ===
/** The per-field validation rules the instructor upload forms use, stated
    as predicates over a request's already-parsed inputs, and the list of
    fields a rule set rejects. */
module Forms {
  import opened Wrappers
  import opened Text

  /** A text input as the request holds it; `None` is an absent or null input
      (the framework turns empty strings into null before validation). */
  type TextInput = Option<string>

  /** An input the `required` rule accepts: present, and not made only of
      the characters `trim` removes (see `FilledIff`). The framework also
      skips the non-`required` rules of such a blank input. */
  predicate Filled(t: TextInput) {
    t.Some? && !AllTrimChars(t.value)
  }

  /** An input counts as filled exactly when trimming leaves something. */
  lemma FilledIff(t: TextInput)
    ensures Filled(t) <==> t.Some? && Trim(t.value) != ""
  {
    if t.Some? {
      TrimEmptyIff(t.value);
    }
  }

  /** An input that starts with a character `trim` keeps is filled. */
  lemma FilledByFirst(t: TextInput)
    requires t.Some? && t.value != [] && !IsTrimChar(t.value[0])
    ensures Filled(t)
  {
  }

  /** A value chosen from options that all start with a kept character is filled. */
  lemma ChosenIsFilled(t: TextInput, options: seq<string>)
    requires t.Some? && t.value in options
    requires forall i :: 0 <= i < |options| ==> options[i] != [] && !IsTrimChar(options[i][0])
    ensures Filled(t)
  {
    var i :| 0 <= i < |options| && options[i] == t.value;
    FilledByFirst(t);
  }

  /** A date (as a day number) or integer input: blank, present but not
      parseable, or parsed. */
  datatype Parsed<T> = Blank | Unparsable | Given(value: T)

  /** `required|string|max:n`. */
  predicate RequiredText(t: TextInput, maxLength: nat) {
    Filled(t) && |t.value| <= maxLength
  }

  /** `required` together with a choice from a fixed list. */
  predicate RequiredChoice(t: TextInput, options: seq<string>) {
    Filled(t) && t.value in options
  }

  /** `nullable` with a conditional `required`: a blank input passes unless
      required, a filled one must satisfy `accept`. */
  predicate Conditional(t: TextInput, required: bool, accept: string -> bool) {
    if Filled(t) then accept(t.value) else !required
  }

  /** `nullable|integer|min:m` with a conditional `required`. */
  predicate ConditionalCount(n: Parsed<int>, required: bool, minimum: int) {
    match n
    case Blank => !required
    case Unparsable => false
    case Given(v) => v >= minimum
  }

  /** `nullable|boolean` for a checkbox: a filled value must be "0" or "1". */
  predicate OptionalFlag(t: TextInput) {
    !Filled(t) || t.value == "0" || t.value == "1"
  }

  /** `required|date|before_or_equal:today`. */
  predicate DateNotAfter(d: Parsed<int>, today: int) {
    d.Given? && d.value <= today
  }

  /** `required|date|after_or_equal:<other date field>`. When the other field
      holds no date, the comparison is against null, which any date passes. */
  predicate DateNotBefore(d: Parsed<int>, other: Parsed<int>) {
    d.Given? && (other.Given? ==> d.value >= other.value)
  }

  /** A blank input (absent, or only whitespace) fails every `required`
      rule, passes a conditional rule exactly when that rule is not required,
      and passes an optional checkbox. */
  lemma BlankInput(t: TextInput, maxLength: nat, options: seq<string>, required: bool, accept: string -> bool)
    requires t.None? || Trim(t.value) == ""
    ensures !RequiredText(t, maxLength) && !RequiredChoice(t, options)
    ensures Conditional(t, required, accept) <==> !required
    ensures OptionalFlag(t)
  {
    FilledIff(t);
  }

  /** A filled input is judged by its value alone, whether or not a
      conditional rule requires it. */
  lemma FilledInput(t: TextInput, maxLength: nat, options: seq<string>, required: bool, accept: string -> bool)
    requires t.Some? && Trim(t.value) != ""
    ensures RequiredText(t, maxLength) <==> |t.value| <= maxLength
    ensures RequiredChoice(t, options) <==> t.value in options
    ensures Conditional(t, required, accept) <==> accept(t.value)
    ensures OptionalFlag(t) <==> t.value == "0" || t.value == "1"
  {
    FilledIff(t);
  }

  /** Dates and counts: a blank or unparsable value fails a required date
      and any count; a blank count passes exactly when not required; an end
      date is compared with the start only when the start is a date. */
  lemma ParsedRules(d: Parsed<int>, other: Parsed<int>, today: int, required: bool, minimum: int)
    ensures !d.Given? ==> !DateNotAfter(d, today) && !DateNotBefore(d, other)
    ensures d.Given? && !other.Given? ==> DateNotBefore(d, other)
    ensures d.Given? && other.Given? ==> (DateNotBefore(d, other) <==> other.value <= d.value)
    ensures d.Blank? ==> (ConditionalCount(d, required, minimum) <==> !required)
    ensures d.Unparsable? ==> !ConditionalCount(d, required, minimum)
    ensures d.Given? ==> (ConditionalCount(d, required, minimum) <==> d.value >= minimum)
  {
  }

  /** One field's rule set and whether the request passes it. */
  datatype Check<F> = Check(field: F, passes: bool)

  /** The fields whose rules fail, in rule order. */
  function Failing<F(==,!new)>(checks: seq<Check<F>>): (failed: seq<F>)
    ensures forall f :: f in failed <==> exists i :: 0 <= i < |checks| && checks[i].field == f && !checks[i].passes
    ensures |failed| <= |checks|
  {
    if checks == [] then []
    else
      var rest := Failing(checks[1..]);
      assert forall i :: 1 <= i < |checks| ==> checks[i] == checks[1..][i - 1];
      (if checks[0].passes then [] else [checks[0].field]) + rest
  }

  /** With each field checked once, a field is reported exactly when its own rule fails. */
  lemma FailingField<F(!new)>(checks: seq<Check<F>>, i: nat)
    requires i < |checks|
    requires forall j :: 0 <= j < |checks| && j != i ==> checks[j].field != checks[i].field
    ensures checks[i].field in Failing(checks) <==> !checks[i].passes
  {
  }
}

=== FILE: instruction.dfy ===
/** KRA I (instruction): the dropdown options, the service-type → role
    dependency map, and the upload form's validation rules for
    instructional materials and mentorship services. */
module Instruction {
  import opened Wrappers
  import opened Forms

  /* ------------------------------------------------------------ options */

  const InstructionalMaterial: string := "Instructional Material"
  const SyllabusDevelopment: string := "Syllabus Development / Enhancement"

  const ImCategories: seq<string> := [InstructionalMaterial, "Curriculum Development", SyllabusDevelopment]

  /** Category → the material types offered for it. */
  const ImTypes: map<string, seq<string>> := map[
    InstructionalMaterial :=
      ["Textbook", "Workbook / Lab Manual", "Module / Courseware", "Multimedia Teaching Material", "Testing Material"],
    SyllabusDevelopment := ["Syllabus"]
  ]

  const ImRoles: seq<string> :=
    ["Sole Author / Developer", "Lead Author / Developer", "Co-author / Co-developer", "Contributor"]

  const ThesisAdvising: string := "Thesis / Dissertation Advising"
  const ThesisPanel: string := "Thesis / Dissertation Panel"
  const CapstoneMentorship: string := "Research Capstone / Project Mentorship"
  const CompetitionCoaching: string := "Competition Coaching"

  const MsServiceTypes: seq<string> := [ThesisAdvising, ThesisPanel, CapstoneMentorship, CompetitionCoaching]

  /** Service type → the roles allowed for it. */
  const MsRoles: map<string, seq<string>> := map[
    ThesisAdvising := ["Adviser / Main Mentor", "Co-adviser"],
    ThesisPanel := ["Panel Chair", "Panel Member", "External Examiner / Critic"],
    CapstoneMentorship := ["Adviser / Main Mentor"],
    CompetitionCoaching := ["Coach"]
  ]

  const MsLevels: seq<string> := ["Undergraduate", "Master's", "Doctorate"]

  /* ------------------------------------------------------------ request */

  /** The form inputs of both instruction criteria. */
  datatype Request = Request(
    title: TextInput,
    category: TextInput,
    kind: TextInput,          // the `type` input
    role: TextInput,
    publicationDate: Parsed<int>,
    serviceType: TextInput,
    studentOrCompetition: TextInput,
    completionDate: Parsed<int>,
    level: TextInput)

  /** The validated fields, one per request key (`title`, `category`, `type`,
      `role`, `publication_date`, `service_type`, `student_or_competition`,
      `completion_date`, `level`). */
  datatype Field =
    | Title | Category | Kind | Role | PublicationDate
    | ServiceType | StudentOrCompetition | CompletionDate | Level

  /** The role closure: it rejects a role only when the service type is a key
      of the role map and the role is not listed under it. */
  predicate RoleFitsService(serviceType: TextInput, role: string) {
    !(serviceType.Some? && serviceType.value in MsRoles && role !in MsRoles[serviceType.value])
  }

  /** When the material type is required, as the rule is written: the second
      listed category is spelled without the spaces around the slash that the
      offered option has. */
  predicate TypeRequiredAsWritten(category: TextInput) {
    category == Some(InstructionalMaterial) || category == Some("Syllabus Development/Enhancement")
  }

  /** When the material type is required, as evidently intended: for every
      category that offers material types. */
  predicate TypeRequired(category: TextInput) {
    category.Some? && category.value in ImTypes
  }

  function MaterialChecks(r: Request, today: int, typeRequired: bool): seq<Check<Field>> {
    [ Check(Title, RequiredText(r.title, 255)),
      Check(Category, RequiredChoice(r.category, ImCategories)),
      Check(Kind, Conditional(r.kind, typeRequired, v => true)),
      Check(Role, RequiredChoice(r.role, ImRoles)),
      Check(PublicationDate, DateNotAfter(r.publicationDate, today)) ]
  }

  function MentorshipChecks(r: Request, today: int): seq<Check<Field>> {
    [ Check(ServiceType, RequiredChoice(r.serviceType, MsServiceTypes)),
      Check(Role, Filled(r.role) && RoleFitsService(r.serviceType, r.role.value)),
      Check(StudentOrCompetition, Filled(r.studentOrCompetition)),
      Check(CompletionDate, DateNotAfter(r.completionDate, today)),
      Check(Level, RequiredChoice(r.level, MsLevels)) ]
  }

  /** The fields the upload form rejects, with the type requirement as written. */
  function ErrorsAsWritten(criterion: string, r: Request, today: int): (errs: seq<Field>)
    ensures criterion != "instructional-materials" && criterion != "mentorship-services" ==> errs == []
    ensures criterion == "instructional-materials" ==>
      forall f :: f in errs ==> f in {Title, Category, Kind, Role, PublicationDate}
    ensures criterion == "mentorship-services" ==>
      forall f :: f in errs ==> f in {ServiceType, Role, StudentOrCompetition, CompletionDate, Level}
  {
    if criterion == "instructional-materials" then
      Failing(MaterialChecks(r, today, TypeRequiredAsWritten(r.category)))
    else if criterion == "mentorship-services" then Failing(MentorshipChecks(r, today))
    else []
  }

  /** The fields the upload form rejects, with the type requirement as intended. */
  function Errors(criterion: string, r: Request, today: int): (errs: seq<Field>)
    ensures criterion != "instructional-materials" && criterion != "mentorship-services" ==> errs == []
    ensures criterion == "instructional-materials" ==>
      forall f :: f in errs ==> f in {Title, Category, Kind, Role, PublicationDate}
    ensures criterion == "mentorship-services" ==>
      forall f :: f in errs ==> f in {ServiceType, Role, StudentOrCompetition, CompletionDate, Level}
  {
    if criterion == "instructional-materials" then Failing(MaterialChecks(r, today, TypeRequired(r.category)))
    else if criterion == "mentorship-services" then Failing(MentorshipChecks(r, today))
    else []
  }

  /* ---------------------------------------------------------- properties */

  /** As written, a blank type is rejected exactly for the categories
      "Instructional Material" and "Syllabus Development/Enhancement". */
  lemma TypeRuleAsWritten(r: Request, today: int)
    requires !Filled(r.kind)
    ensures Kind in ErrorsAsWritten("instructional-materials", r, today) <==>
      r.category == Some("Instructional Material") || r.category == Some("Syllabus Development/Enhancement")
  {
    FailingField(MaterialChecks(r, today, TypeRequiredAsWritten(r.category)), 2);
  }

  /** The offered syllabus category never triggers the type requirement as
      written, although material types are listed for it: a syllabus upload
      with no type passes. */
  lemma SyllabusTypeSlipsThrough()
    ensures var r := Request(Some("Course syllabus"), Some("Syllabus Development / Enhancement"), None,
                             Some("Contributor"), Given(0), None, None, Blank, None);
      && "Syllabus Development / Enhancement" in ImCategories
      && "Syllabus Development / Enhancement" in ImTypes
      && ErrorsAsWritten("instructional-materials", r, 0) == []
      && Errors("instructional-materials", r, 0) == [Kind]
  {
    FilledByFirst(Some("Course syllabus"));
    FilledByFirst(Some("Syllabus Development / Enhancement"));
    FilledByFirst(Some("Contributor"));
  }

  /** As intended, a blank type is rejected exactly for the categories that
      offer material types, and a filled type is never rejected. */
  lemma TypeRule(r: Request, today: int)
    ensures !Filled(r.kind) ==>
      (Kind in Errors("instructional-materials", r, today) <==>
        r.category == Some("Instructional Material") || r.category == Some("Syllabus Development / Enhancement"))
    ensures Filled(r.kind) ==> Kind !in Errors("instructional-materials", r, today)
  {
    FailingField(MaterialChecks(r, today, TypeRequired(r.category)), 2);
  }

  /** The rules as written and as intended differ only on the type: every
      other field is rejected by both or by neither, for every criterion. */
  lemma AgreeOffKind(criterion: string, r: Request, today: int, f: Field)
    requires f != Kind
    ensures f in Errors(criterion, r, today) <==> f in ErrorsAsWritten(criterion, r, today)
  {
    if criterion == "instructional-materials" {
      var a := MaterialChecks(r, today, TypeRequired(r.category));
      var b := MaterialChecks(r, today, TypeRequiredAsWritten(r.category));
      assert forall i :: 0 <= i < 5 && i != 2 ==> a[i] == b[i];
      assert a[2].field == b[2].field == Kind;
      assert f in Failing(a) <==> f in Failing(b);
    }
  }

  /** Category and role of a material must be chosen from their lists, under
      the rules as written and, equally, as intended. */
  lemma MaterialChoices(r: Request, today: int)
    ensures Category !in ErrorsAsWritten("instructional-materials", r, today) <==>
      Filled(r.category) && r.category.value in ImCategories
    ensures Role !in ErrorsAsWritten("instructional-materials", r, today) <==> Filled(r.role) && r.role.value in ImRoles
    ensures Category !in Errors("instructional-materials", r, today) <==>
      Filled(r.category) && r.category.value in ImCategories
    ensures Role !in Errors("instructional-materials", r, today) <==> Filled(r.role) && r.role.value in ImRoles
  {
    FailingField(MaterialChecks(r, today, TypeRequiredAsWritten(r.category)), 1);
    FailingField(MaterialChecks(r, today, TypeRequiredAsWritten(r.category)), 3);
    AgreeOffKind("instructional-materials", r, today, Category);
    AgreeOffKind("instructional-materials", r, today, Role);
  }

  /** A mentorship role is rejected only when blank, or when the service type
      is a key of the role map and the role is not listed under it. */
  lemma MentorshipRoleRule(r: Request, today: int)
    ensures Role in Errors("mentorship-services", r, today) <==>
      !Filled(r.role)
      || (r.serviceType.Some? && r.serviceType.value in MsRoles && r.role.value !in MsRoles[r.serviceType.value])
  {
    FailingField(MentorshipChecks(r, today), 1);
  }

  /** Any filled role passes the role rule when the service type is not a key of the role map. */
  lemma UnknownServiceTypeAcceptsAnyRole(r: Request, today: int)
    requires Filled(r.role)
    requires r.serviceType.None? || r.serviceType.value !in MsServiceTypes
    ensures Role !in Errors("mentorship-services", r, today)
  {
    MentorshipRoleRule(r, today);
  }

  /** Service type and level must be chosen from their lists. */
  lemma MentorshipChoices(r: Request, today: int)
    ensures ServiceType !in Errors("mentorship-services", r, today) <==>
      Filled(r.serviceType) && r.serviceType.value in MsServiceTypes
    ensures Level !in Errors("mentorship-services", r, today) <==> Filled(r.level) && r.level.value in MsLevels
  {
    FailingField(MentorshipChecks(r, today), 0);
    FailingField(MentorshipChecks(r, today), 4);
  }
}

=== FILE: professional_development.dfy ===
/** KRA IV (professional development): the dropdown options and the upload
    form's validation rules for organisations, training and awards. */
module ProfessionalDevelopment {
  import opened Wrappers
  import opened Forms

  /* ------------------------------------------------------------ options */

  const PoMembershipTypes: seq<string> := ["Member", "Life Member", "Fellow"]

  const TrainingWorkshop: string := "Training / Seminar / Workshop"
  const ConferenceForum: string := "Conference / Forum / Symposium"

  const PtTypes: seq<string> :=
    ["Post-Doctoral Program", "Doctoral Degree", "Master's Degree", TrainingWorkshop, ConferenceForum]

  /** The training types measured in hours rather than by level. */
  const NonDegreeTypes: seq<string> := [TrainingWorkshop, ConferenceForum]

  const PaLevels: seq<string> := ["Institutional / University", "Regional", "National", "International"]

  /* ------------------------------------------------------------ request */

  /** The form inputs of the three criteria. For `isOfficer`, `None` means
      the checkbox key was not sent at all. */
  datatype Request = Request(
    title: TextInput,
    membershipType: TextInput,
    isOfficer: TextInput,
    role: TextInput,
    startDate: Parsed<int>,
    endDate: Parsed<int>,
    kind: TextInput,          // the `type` input
    organizer: TextInput,
    hours: Parsed<int>,
    level: TextInput,
    awardingBody: TextInput)

  /** The validated fields, one per request key (`title`, `membership_type`,
      `is_officer`, `role`, `start_date`, `end_date`, `type`, `organizer`,
      `hours`, `level`, `awarding_body`). */
  datatype Field =
    | Title | MembershipType | IsOfficer | Role | StartDate | EndDate
    | Kind | Organizer | Hours | Level | AwardingBody

  /** Hours are asked for the non-degree training types. */
  predicate HoursRequired(kind: TextInput) {
    kind.Some? && kind.value in NonDegreeTypes
  }

  /** A level is asked for every other training type, including a missing one. */
  predicate LevelRequired(kind: TextInput) {
    !HoursRequired(kind)
  }

  function OrganizationChecks(r: Request, today: int): seq<Check<Field>> {
    [ Check(Title, RequiredText(r.title, 255)),
      Check(MembershipType, RequiredChoice(r.membershipType, PoMembershipTypes)),
      Check(IsOfficer, OptionalFlag(r.isOfficer)),
      Check(Role, Conditional(r.role, r.isOfficer.Some?, v => |v| <= 255)),
      Check(StartDate, DateNotAfter(r.startDate, today)),
      Check(EndDate, DateNotBefore(r.endDate, r.startDate)) ]
  }

  function TrainingChecks(r: Request, today: int): seq<Check<Field>> {
    [ Check(Title, RequiredText(r.title, 255)),
      Check(Kind, RequiredChoice(r.kind, PtTypes)),
      Check(Organizer, RequiredText(r.organizer, 255)),
      Check(StartDate, DateNotAfter(r.startDate, today)),
      Check(EndDate, DateNotBefore(r.endDate, r.startDate)),
      Check(Hours, ConditionalCount(r.hours, HoursRequired(r.kind), 1)),
      Check(Level, Conditional(r.level, LevelRequired(r.kind), v => true)) ]
  }

  function AwardChecks(r: Request, today: int): seq<Check<Field>> {
    [ Check(Title, RequiredText(r.title, 255)),
      Check(AwardingBody, RequiredText(r.awardingBody, 255)),
      Check(Level, RequiredChoice(r.level, PaLevels)),
      Check(EndDate, DateNotAfter(r.endDate, today)) ]
  }

  /** The fields the upload form rejects for the given criterion; an unknown
      criterion has no rules and rejects nothing. */
  function Errors(criterion: string, r: Request, today: int): (errs: seq<Field>)
    ensures criterion !in {"prof-organizations", "prof-training", "prof-awards"} ==> errs == []
    ensures criterion == "prof-awards" ==> forall f :: f in errs ==> f in {Title, AwardingBody, Level, EndDate}
  {
    if criterion == "prof-organizations" then Failing(OrganizationChecks(r, today))
    else if criterion == "prof-training" then Failing(TrainingChecks(r, today))
    else if criterion == "prof-awards" then Failing(AwardChecks(r, today))
    else []
  }

  /* ---------------------------------------------------------- properties */

  /** With both left blank, a training entry is rejected on hours exactly for
      the two non-degree types and on level exactly for all other types. */
  lemma TrainingHoursAndLevel(r: Request, today: int)
    requires r.hours.Blank? && !Filled(r.level)
    ensures Hours in Errors("prof-training", r, today) <==>
      r.kind == Some("Training / Seminar / Workshop") || r.kind == Some("Conference / Forum / Symposium")
    ensures Level in Errors("prof-training", r, today) <==>
      !(r.kind == Some("Training / Seminar / Workshop") || r.kind == Some("Conference / Forum / Symposium"))
  {
    FailingField(TrainingChecks(r, today), 5);
    FailingField(TrainingChecks(r, today), 6);
  }

  /** Given hours must be a whole number of at least 1, whatever the type. */
  lemma TrainingHoursValue(r: Request, today: int)
    requires !r.hours.Blank?
    ensures Hours !in Errors("prof-training", r, today) <==> r.hours.Given? && r.hours.value >= 1
  {
    FailingField(TrainingChecks(r, today), 5);
  }

  /** An organisation role is required exactly when the officer checkbox was sent. */
  lemma OfficerRole(r: Request, today: int)
    requires !Filled(r.role)
    ensures Role in Errors("prof-organizations", r, today) <==> r.isOfficer.Some?
  {
    FailingField(OrganizationChecks(r, today), 3);
  }

  /** The membership type must be Member, Life Member or Fellow. */
  lemma MembershipChoice(r: Request, today: int)
    ensures MembershipType !in Errors("prof-organizations", r, today) <==>
      r.membershipType in {Some("Member"), Some("Life Member"), Some("Fellow")}
  {
    if r.membershipType in {Some("Member"), Some("Life Member"), Some("Fellow")} {
      FilledByFirst(r.membershipType);
    }
    FailingField(OrganizationChecks(r, today), 1);
  }

  /** For organisations and training, the start date is a date not after
      today, and the end date is a date not before the start date; with no
      start date to compare against, any end date passes. */
  lemma DateOrder(criterion: string, r: Request, today: int)
    requires criterion == "prof-organizations" || criterion == "prof-training"
    ensures StartDate !in Errors(criterion, r, today) <==> r.startDate.Given? && r.startDate.value <= today
    ensures EndDate !in Errors(criterion, r, today) <==>
      r.endDate.Given? && (r.startDate.Given? ==> r.startDate.value <= r.endDate.value)
  {
    if criterion == "prof-organizations" {
      FailingField(OrganizationChecks(r, today), 4);
      FailingField(OrganizationChecks(r, today), 5);
    } else {
      FailingField(TrainingChecks(r, today), 3);
      FailingField(TrainingChecks(r, today), 4);
    }
  }

  /** The training type comes from the training list and the award level from the award list. */
  lemma TypeAndLevelChoices(r: Request, today: int)
    ensures Kind !in Errors("prof-training", r, today) <==> Filled(r.kind) && r.kind.value in PtTypes
    ensures Level !in Errors("prof-awards", r, today) <==> Filled(r.level) && r.level.value in PaLevels
  {
    FailingField(TrainingChecks(r, today), 1);
    FailingField(AwardChecks(r, today), 2);
  }
}

=== FILE: research.dfy ===
/** KRA II (research, inventions and creative work): the dropdown options,
    their type → sub-type and type → status/level dependency maps, and the
    upload form's validation rules for both criteria. */
module Research {
  import opened Wrappers
  import opened Forms
  import Text

  /* ------------------------------------------------------------ options */

  const JournalArticle: string := "Journal Article"
  const ConferencePaper: string := "Conference Paper / Proceedings"

  const RoCategories: seq<string> := [JournalArticle, "Book / Monograph", "Book Chapter", ConferencePaper]

  const RoIndexing: seq<string> := [
    "Scopus-Indexed",
    "Web of Science (WoS) / Clarivate Analytics",
    "CHED-Accredited / Recognized Journal",
    "Peer-Reviewed (non-indexed)"
  ]

  const RoRoles: seq<string> := ["Sole Author", "Lead Author", "Co-author", "Contributor"]

  const Invention: string := "Invention / Utility Model / Industrial Design"
  const CreativeWork: string := "Creative Work"
  const Software: string := "Software / Technology Innovation"

  const IcwTypes: seq<string> := [Invention, CreativeWork, Software]

  /** Type → the sub-types allowed for it. */
  const IcwSubTypes: map<string, seq<string>> := map[
    Invention := ["Patent", "Utility Model", "Industrial Design"],
    CreativeWork := ["Visual Arts", "Literary Work", "Musical Work", "Performance"],
    Software := ["Copyrighted Software", "Commercialized Technology", "Patented Software / Technology"]
  ]

  /** Type → the status/levels allowed for it. */
  const IcwStatusLevels: map<string, seq<string>> := map[
    Invention := ["Filed / Pending", "Granted / Issued"],
    CreativeWork := ["Institutional", "Regional", "National", "International"],
    Software := ["Development Stage", "Prototype", "Deployed / Commercialized"]
  ]

  const IcwRoles: seq<string> := ["Inventor", "Creator", "Designer", "Developer", "Contributor"]

  /** Both dependency maps are keyed by exactly the listed types. */
  lemma DependencyMapsCoverTypes()
    ensures forall t :: t in IcwSubTypes <==> t in IcwTypes
    ensures forall t :: t in IcwStatusLevels <==> t in IcwTypes
  {
  }

  /** No listed type is blank. */
  lemma TypesStartWithKeptChar()
    ensures forall i :: 0 <= i < |IcwTypes| ==> IcwTypes[i] != [] && !Text.IsTrimChar(IcwTypes[i][0])
  {
    assert Invention == "I" + Invention[1..];
    assert CreativeWork == "C" + CreativeWork[1..];
    assert Software == "S" + Software[1..];
  }

  /* ------------------------------------------------------------ request */

  /** The form inputs of both research criteria. */
  datatype Request = Request(
    title: TextInput,
    role: TextInput,
    category: TextInput,
    journalName: TextInput,
    indexing: TextInput,
    publicationDate: Parsed<int>,
    doi: TextInput,
    kind: TextInput,          // the `type` input
    subType: TextInput,
    statusLevel: TextInput,
    exhibitionDate: Parsed<int>)

  /** The validated fields, one per request key (`title`, `role`, `category`,
      `journal_name`, `indexing`, `publication_date`, `doi`, `type`,
      `sub_type`, `status_level`, `exhibition_date`). */
  datatype Field =
    | Title | Role | Category | JournalName | Indexing | PublicationDate | Doi
    | Kind | SubType | StatusLevel | ExhibitionDate

  /** The custom closure rule: `value` is listed under the chosen type in a
      dependency map; an unknown or missing type rejects every value. */
  predicate AllowedFor(kind: TextInput, value: string, deps: map<string, seq<string>>) {
    kind.Some? && kind.value in deps && value in deps[kind.value]
  }

  predicate IndexingRequired(category: TextInput) {
    category == Some(JournalArticle) || category == Some(ConferencePaper)
  }

  predicate DoiRequired(category: TextInput) {
    category == Some(JournalArticle)
  }

  function OutputChecks(r: Request, today: int): seq<Check<Field>> {
    [ Check(Title, RequiredText(r.title, 255)),
      Check(Role, RequiredChoice(r.role, RoRoles)),
      Check(Category, RequiredChoice(r.category, RoCategories)),
      Check(JournalName, RequiredText(r.journalName, 255)),
      Check(Indexing, Conditional(r.indexing, IndexingRequired(r.category), v => v in RoIndexing)),
      Check(PublicationDate, DateNotAfter(r.publicationDate, today)),
      Check(Doi, Conditional(r.doi, DoiRequired(r.category), v => |v| <= 255)) ]
  }

  function CreativeWorkChecks(r: Request, today: int): seq<Check<Field>> {
    [ Check(Title, RequiredText(r.title, 255)),
      Check(Role, RequiredChoice(r.role, IcwRoles)),
      Check(Kind, RequiredChoice(r.kind, IcwTypes)),
      Check(SubType, Filled(r.subType) && AllowedFor(r.kind, r.subType.value, IcwSubTypes)),
      Check(StatusLevel, Filled(r.statusLevel) && AllowedFor(r.kind, r.statusLevel.value, IcwStatusLevels)),
      Check(ExhibitionDate, DateNotAfter(r.exhibitionDate, today)) ]
  }

  /** The fields the upload form rejects for the given criterion; an unknown
      criterion has no rules and rejects nothing. */
  function Errors(criterion: string, r: Request, today: int): (errs: seq<Field>)
    ensures criterion != "research-outputs" && criterion != "inventions-creative-works" ==> errs == []
    ensures criterion == "research-outputs" ==>
      forall f :: f in errs ==> f in {Title, Role, Category, JournalName, Indexing, PublicationDate, Doi}
    ensures criterion == "inventions-creative-works" ==>
      forall f :: f in errs ==> f in {Title, Role, Kind, SubType, StatusLevel, ExhibitionDate}
  {
    if criterion == "research-outputs" then Failing(OutputChecks(r, today))
    else if criterion == "inventions-creative-works" then Failing(CreativeWorkChecks(r, today))
    else []
  }

  /* ---------------------------------------------------------- properties */

  /** Indexing is required exactly for journal articles and conference
      papers, and a given indexing must be one of the listed ones. */
  lemma IndexingRule(r: Request, today: int)
    ensures !Filled(r.indexing) ==>
      (Indexing in Errors("research-outputs", r, today) <==>
        r.category == Some("Journal Article") || r.category == Some("Conference Paper / Proceedings"))
    ensures Filled(r.indexing) ==>
      (Indexing in Errors("research-outputs", r, today) <==> r.indexing.value !in RoIndexing)
  {
    FailingField(OutputChecks(r, today), 4);
  }

  /** A DOI is required exactly for journal articles. */
  lemma DoiRule(r: Request, today: int)
    requires !Filled(r.doi)
    ensures Doi in Errors("research-outputs", r, today) <==> r.category == Some("Journal Article")
  {
    FailingField(OutputChecks(r, today), 6);
  }

  /** Role and category of a research output must be chosen from their lists. */
  lemma OutputChoices(r: Request, today: int)
    ensures Role !in Errors("research-outputs", r, today) <==> Filled(r.role) && r.role.value in RoRoles
    ensures Category !in Errors("research-outputs", r, today) <==>
      Filled(r.category) && r.category.value in RoCategories
  {
    FailingField(OutputChecks(r, today), 1);
    FailingField(OutputChecks(r, today), 2);
  }

  /** Type and role of an invention or creative work must be chosen from their lists. */
  lemma CreativeWorkChoices(r: Request, today: int)
    ensures Kind !in Errors("inventions-creative-works", r, today) <==> Filled(r.kind) && r.kind.value in IcwTypes
    ensures Role !in Errors("inventions-creative-works", r, today) <==> Filled(r.role) && r.role.value in IcwRoles
  {
    FailingField(CreativeWorkChecks(r, today), 1);
    FailingField(CreativeWorkChecks(r, today), 2);
  }

  /** A sub-type is accepted exactly when the chosen type is a key of the
      sub-type map and the sub-type is listed under it; likewise for the
      status/level. */
  lemma DependentChoices(r: Request, today: int)
    ensures SubType !in Errors("inventions-creative-works", r, today) <==>
      Filled(r.subType) && r.kind.Some? && r.kind.value in IcwSubTypes && r.subType.value in IcwSubTypes[r.kind.value]
    ensures StatusLevel !in Errors("inventions-creative-works", r, today) <==>
      Filled(r.statusLevel) && r.kind.Some? && r.kind.value in IcwStatusLevels
      && r.statusLevel.value in IcwStatusLevels[r.kind.value]
  {
    FailingField(CreativeWorkChecks(r, today), 3);
    FailingField(CreativeWorkChecks(r, today), 4);
  }

  /** An accepted sub-type or status/level implies an accepted type. */
  lemma DependentChoiceNeedsType(r: Request, today: int)
    requires SubType !in Errors("inventions-creative-works", r, today)
      || StatusLevel !in Errors("inventions-creative-works", r, today)
    ensures Kind !in Errors("inventions-creative-works", r, today)
  {
    DependentChoices(r, today);
    CreativeWorkChoices(r, today);
    DependencyMapsCoverTypes();
    if r.kind.Some? && r.kind.value in IcwTypes {
      TypesStartWithKeptChar();
      ChosenIsFilled(r.kind, IcwTypes);
    }
  }

  /** A sub-type of another type is rejected: "Patent" is not a creative-work sub-type. */
  lemma SubTypeTiedToType(r: Request, today: int)
    requires r.kind == Some(CreativeWork) && r.subType == Some("Patent")
    ensures SubType in Errors("inventions-creative-works", r, today)
  {
    DependentChoices(r, today);
  }
}

=== FILE: text.dfy ===
/** String helpers that mirror the PHP built-ins the core relies on:
    `trim`, `explode(' ', …)` and `array_filter` over the exploded pieces. */
module Text {

  /** The characters PHP's `trim` strips by default: space, tab, line feed,
      carriage return, NUL and vertical tab. */
  predicate IsTrimChar(c: char) {
    c == ' ' || c == '\t' || c == '\n' || c == '\r' || c == '\0' || c == '\U{0B}'
  }

  predicate AllTrimChars(s: string) {
    forall i :: 0 <= i < |s| ==> IsTrimChar(s[i])
  }

  /** Strips leading trim characters: the result is the suffix of `s` that
      starts at the first character PHP's `trim` keeps. */
  function TrimStart(s: string): (r: string)
    ensures |r| <= |s| && r == s[|s| - |r|..]
    ensures AllTrimChars(s[..|s| - |r|])
    ensures r == [] || !IsTrimChar(r[0])
    decreases |s|
  {
    if s != [] && IsTrimChar(s[0]) then
      var r := TrimStart(s[1..]);
      assert s[..|s| - |r|] == [s[0]] + s[1..][..|s[1..]| - |r|];
      r
    else s
  }

  /** Strips trailing trim characters: the result is the prefix of `s` that
      ends at the last character PHP's `trim` keeps. */
  function TrimEnd(s: string): (r: string)
    ensures |r| <= |s| && r == s[..|r|]
    ensures AllTrimChars(s[|r|..])
    ensures r == [] || !IsTrimChar(r[|r| - 1])
    decreases |s|
  {
    if s != [] && IsTrimChar(s[|s| - 1]) then
      var r := TrimEnd(s[..|s| - 1]);
      assert s[|r|..] == s[..|s| - 1][|r|..] + [s[|s| - 1]];
      r
    else s
  }

  /** PHP's `trim($s)`: the input with a prefix and a suffix made only of
      trim characters removed, so that neither end of what remains is one. */
  function Trim(s: string): (r: string)
    ensures r == [] || (!IsTrimChar(r[0]) && !IsTrimChar(r[|r| - 1]))
  {
    var t := TrimStart(s);
    var r := TrimEnd(t);
    assert r != [] ==> r[0] == t[0];
    r
  }

  /** What `trim` keeps is a contiguous part of the input, and everything it
      cut off on either side is made only of trim characters. */
  lemma TrimIsMiddle(s: string)
    ensures exists i ::
              && 0 <= i <= |s| - |Trim(s)| && Trim(s) == s[i..i + |Trim(s)|]
              && AllTrimChars(s[..i]) && AllTrimChars(s[i + |Trim(s)|..])
  {
    CutBothEnds(s, TrimStart(s), Trim(s));
  }

  /** Cutting a trim-character prefix off `s`, then a trim-character suffix
      off what remains, leaves a middle part of `s`. */
  lemma CutBothEnds(s: string, t: string, r: string)
    requires |t| <= |s| && t == s[|s| - |t|..] && AllTrimChars(s[..|s| - |t|])
    requires |r| <= |t| && r == t[..|r|] && AllTrimChars(t[|r|..])
    ensures exists i ::
              && 0 <= i <= |s| - |r| && r == s[i..i + |r|]
              && AllTrimChars(s[..i]) && AllTrimChars(s[i + |r|..])
  {
    var i := |s| - |t|;
    assert r == s[i..i + |r|];
    assert s[i + |r|..] == t[|r|..];
  }

  /** `trim` yields the empty string exactly for strings made only of trim characters. */
  lemma TrimEmptyIff(s: string)
    ensures Trim(s) == [] <==> AllTrimChars(s)
  {
    var t := TrimStart(s);
    if Trim(s) == [] {
      assert t[|TrimEnd(t)|..] == t;
      AllTrimCharsConcat(s[..|s| - |t|], t);
      assert s[..|s| - |t|] + t == s;
    }
    if AllTrimChars(s) {
      AllTrimStartsEmpty(s);
    }
  }

  lemma AllTrimCharsConcat(a: string, b: string)
    requires AllTrimChars(a) && AllTrimChars(b)
    ensures AllTrimChars(a + b)
  {
    forall i | 0 <= i < |a + b|
      ensures IsTrimChar((a + b)[i])
    {
      if i < |a| {
        assert (a + b)[i] == a[i];
      } else {
        assert (a + b)[i] == b[i - |a|];
      }
    }
  }

  lemma {:induction false} AllTrimStartsEmpty(s: string)
    requires AllTrimChars(s)
    ensures TrimStart(s) == []
    decreases |s|
  {
    if s != [] {
      AllTrimStartsEmpty(s[1..]);
    }
  }

  /** Trimming a string that has no leading or trailing trim character changes nothing. */
  lemma TrimKeepsCleanString(s: string)
    requires s == [] || (!IsTrimChar(s[0]) && !IsTrimChar(s[|s| - 1]))
    ensures Trim(s) == s
  {
  }

  /** Position of the first occurrence of `c` in `s`. */
  function IndexOf(s: string, c: char): (i: nat)
    requires c in s
    ensures i < |s| && s[i] == c && c !in s[..i]
  {
    if s[0] == c then 0
    else
      var i := 1 + IndexOf(s[1..], c);
      assert s[..i] == [s[0]] + s[1..][..i - 1];
      i
  }

  /** `IndexOf` finds the position before which the character does not occur. */
  lemma {:induction false} IndexOfFirst(s: string, c: char, k: nat)
    requires k < |s| && s[k] == c && c !in s[..k]
    ensures IndexOf(s, c) == k
  {
    if k > 0 {
      assert s[0] == s[..k][0];
      assert s[1..][..k - 1] == s[1..k];
      assert s[1..k] == s[..k][1..];
      IndexOfFirst(s[1..], c, k - 1);
    }
  }

  /** PHP's `implode(sep, parts)`. */
  function Implode(parts: seq<string>, sep: char): (s: string)
    requires |parts| >= 1
    ensures |s| >= |parts| - 1
  {
    if |parts| == 1 then parts[0] else parts[0] + [sep] + Implode(parts[1..], sep)
  }

  /** Joining two lists is joining each and putting one separator between. */
  lemma {:induction false} ImplodeConcat(a: seq<string>, b: seq<string>, sep: char)
    requires |a| >= 1 && |b| >= 1
    ensures Implode(a + b, sep) == Implode(a, sep) + [sep] + Implode(b, sep)
    decreases |a|
  {
    assert (a + b)[0] == a[0];
    if |a| == 1 {
      assert (a + b)[1..] == b;
    } else {
      assert (a + b)[1..] == a[1..] + b;
      ImplodeConcat(a[1..], b, sep);
    }
  }

  /** PHP's `explode(sep, s)`: the pieces between the separators, so `n`
      separators give `n + 1` pieces (some possibly empty). Implode undoes it. */
  function Explode(s: string, sep: char): (parts: seq<string>)
    ensures |parts| >= 1
    ensures forall i :: 0 <= i < |parts| ==> sep !in parts[i]
    ensures Implode(parts, sep) == s
    decreases |s|
  {
    if sep !in s then [s]
    else
      var i := IndexOf(s, sep);
      var rest := Explode(s[i + 1..], sep);
      var parts := [s[..i]] + rest;
      assert parts[1..] == rest;
      assert s == s[..i] + [sep] + s[i + 1..];
      parts
  }

  /** Exploding an imploded list gives the list back, provided no piece holds the separator. */
  lemma {:induction false} ExplodeImplode(parts: seq<string>, sep: char)
    requires |parts| >= 1
    requires forall i :: 0 <= i < |parts| ==> sep !in parts[i]
    ensures Explode(Implode(parts, sep), sep) == parts
    decreases |parts|
  {
    if |parts| == 1 {
    } else {
      var s := Implode(parts, sep);
      var tail := Implode(parts[1..], sep);
      assert s == parts[0] + [sep] + tail;
      assert sep in s by { assert s[|parts[0]|] == sep; }
      assert s[..|parts[0]|] == parts[0];
      assert s[|parts[0]|] == sep;
      IndexOfFirst(s, sep, |parts[0]|);
      var i := IndexOf(s, sep);
      assert s[..i] == parts[0];
      assert s[i + 1..] == tail;
      ExplodeImplode(parts[1..], sep);
      assert parts == [parts[0]] + parts[1..];
    }
  }

  /** Splitting at one separator splits each side on its own: the pieces of
      `x + sep + y` are the pieces of `x` followed by the pieces of `y`. */
  lemma {:induction false} ExplodeConcat(x: string, y: string, sep: char)
    ensures Explode(x + [sep] + y, sep) == Explode(x, sep) + Explode(y, sep)
  {
    var px, py := Explode(x, sep), Explode(y, sep);
    var ps := px + py;
    ImplodeConcat(px, py, sep);
    assert Implode(ps, sep) == x + [sep] + y;
    assert forall i :: 0 <= i < |ps| ==> sep !in ps[i] by {
      forall i | 0 <= i < |ps| ensures sep !in ps[i] {
        if i < |px| {
          assert ps[i] == px[i];
        } else {
          assert ps[i] == py[i - |px|];
        }
      }
    }
    ExplodeImplode(ps, sep);
  }

  /** `array_filter` over strings: drops the empty pieces and keeps the
      others, in order and with repeats. (PHP's filter also drops "0"; the
      pieces it is applied to here hold letters and whitespace only.) */
  function NonEmpty(parts: seq<string>): (r: seq<string>)
    ensures |r| <= |parts|
    ensures forall i :: 0 <= i < |r| ==> r[i] != [] && r[i] in parts
    ensures forall p :: p != [] ==> multiset(r)[p] == multiset(parts)[p]
  {
    if parts == [] then []
    else
      var rest := NonEmpty(parts[1..]);
      assert parts == [parts[0]] + parts[1..];
      assert multiset(parts) == multiset([parts[0]]) + multiset(parts[1..]);
      if parts[0] == [] then rest
      else
        assert multiset([parts[0]] + rest) == multiset([parts[0]]) + multiset(rest);
        [parts[0]] + rest
  }

  /** Filtering a concatenation filters each part, keeping their order. */
  lemma {:induction false} NonEmptyConcat(a: seq<string>, b: seq<string>)
    ensures NonEmpty(a + b) == NonEmpty(a) + NonEmpty(b)
    decreases |a|
  {
    if a == [] {
      assert a + b == b;
    } else {
      assert (a + b)[0] == a[0];
      assert (a + b)[1..] == a[1..] + b;
      NonEmptyConcat(a[1..], b);
    }
  }

  /** A list with no empty piece is left as it is. */
  lemma {:induction false} NonEmptyKeepsFullList(parts: seq<string>)
    requires forall i :: 0 <= i < |parts| ==> parts[i] != []
    ensures NonEmpty(parts) == parts
    decreases |parts|
  {
    if parts != [] {
      NonEmptyKeepsFullList(parts[1..]);
    }
  }
}

=== FILE: wrappers.dfy ===
/** The optional-value datatype the rest of the model uses for PHP's nullable values. */
module Wrappers {

  /** `None` stands for PHP's `null` (or a key that is not set). */
  datatype Option<+T> = None | Some(value: T) {

    /** The value, or `default` when there is none (PHP's `??` operator). */
    function GetOr(default: T): T {
      match this
      case Some(v) => v
      case None => default
    }
  }
}
